=== FILE: README.md ===
# Annotation tool core, modelled in Dafny

This project models the core of a browser-based text-annotation tool.

- **File-content page.** A user selects text in a plain-text document or in a list of JSON records. The user then picks one of three labels (person, organization, location). The page keeps a store of annotations and shows the document with each annotated text highlighted.
  - A text-mode annotation covers the whole document.
  - A record-mode annotation belongs to the record currently shown.
  - Previous and Next buttons move between records.
- **Project hub.** The page lists projects and adds a new one unless its name is already taken, ignoring letter case.

The modules follow the page's structure:

- `Wrappers`: `Option` and `Result`.
- `Strings`: the JavaScript string operations the page relies on.
  - `trim`, with the ECMAScript whitespace set.
  - `indexOf` with a start position.
  - The global regular-expression replace of an escaped, and so literal, pattern.
- `Labels`: the fixed label registry and `labels.find`.
- `Annotations`: the selection handler and the label picker's acceptance rule.
  - It also states the invariants the store keeps: no duplicate in scope, trimmed non-empty texts, registry labels.
- `Ordering`: the stable longest-text-first sort the page applies to the store.
- `Segments`: how the text view cuts each line into plain and highlighted pieces.
- `Colorize`: how the record view colours the serialised record.
  - It holds the function as written.
  - It holds a corrected, piece-based colouring.
  - It holds the input on which the two differ (see Findings).
- `Page`: the page as a whole. It runs selections, label picks and text renders over a session. A text render sorts the store in place, so later picks append to the sorted store.
- `Navigation`: the Previous and Next buttons.
- `Projects`: `addProject` and the project dialog.
- `Scenarios`: the sample line "Alice works at Acme. Acme is in Paris.", rendered against two overlapping annotations.

Lower-casing (`toLowerCase`) is a parameter of `Projects`. `AsciiLower` is one instance of it, used in the worked example.

The two views treat an annotation differently:

- **Text view: one forward scan.** An annotation highlights at most one occurrence per line: the first at or after where the previous highlight ended (src/Text/FileContentDisplay.jsx:113-137).
- **Record view: every occurrence.** An annotation's text is replaced by a global regular expression, so every occurrence is wrapped (src/Text/FileContentDisplay.jsx:89-93).

## Model

| member | source | states |
|---|---|---|
| Labels.FirstWithKey | src/Text/FileContentDisplay.jsx:55 | the position of the first label with the key, or -1 exactly when no label has it |
| Labels.Lookup | src/Text/FileContentDisplay.jsx:19-41 | a label is found exactly for the keys "person", "organization" and "location", and it is the registry entry with that key |
| Labels.KeysUnique | src/Text/FileContentDisplay.jsx:19-41 | no two registry labels share a key |
| Strings.Trim | src/Text/FileContentDisplay.jsx:44 | the result neither starts nor ends with whitespace; it is a contiguous slice of the input with only whitespace around it; it is empty exactly when the input is all whitespace |
| Strings.IndexOf | src/Text/FileContentDisplay.jsx:114 | a non-negative result is an occurrence at or after the clamped start |
| Strings.IndexOfFirst | src/Text/FileContentDisplay.jsx:114 | -1 exactly when nothing occurs at or after the start; otherwise nothing occurs between the start and the reported position |
| Strings.IndexOfAt | src/Text/FileContentDisplay.jsx:114 | the first occurrence at or after the start is the one reported |
| Strings.ReplaceAll | src/Text/FileContentDisplay.jsx:89-93 | the result is never shorter than the text; what it wraps is stated through `Colorize.SplitPlainHtml` and `Colorize.SplitPlainHits` |
| Strings.ReplaceAbsent | src/Text/FileContentDisplay.jsx:89-93 | replacing a pattern that does not occur leaves the text unchanged |
| Strings.ReplaceWithNothing | src/Text/FileContentDisplay.jsx:89-93 | wrapping every occurrence in empty markup gives back the text |
| Strings.ReplaceAfter | src/Text/FileContentDisplay.jsx:89-93 | when the first occurrence follows a prefix, the replace keeps the prefix and wraps that occurrence first |
| Strings.FirstAfterBreak | src/Text/FileContentDisplay.jsx:89-93 | after a prefix without the pattern, a break character that is not in the pattern and then the pattern, the first match is right after the break |
| Annotations.Propose | src/Text/FileContentDisplay.jsx:53-76 | an empty selection, an unknown key and a duplicate in scope are each rejected exactly in their case; otherwise exactly one annotation is appended with the selection, the label and index -1 in text mode or the current record |
| Annotations.SelectText | src/Text/FileContentDisplay.jsx:43-51 | the store is kept; the selection is the trimmed text, empty exactly when the raw selection is all whitespace; the error is cleared only on a non-empty selection |
| Annotations.ChooseLabel | src/Text/FileContentDisplay.jsx:53-76 | an empty selection or unknown key changes nothing; a duplicate only sets the "already annotated" message; otherwise the annotation is appended and the selection cleared |
| Annotations.AppendValid | src/Text/FileContentDisplay.jsx:58-70 | appending a well-formed annotation that nothing in scope claims keeps the store valid |
| Annotations.InitialValid | src/Text/FileContentDisplay.jsx:14-16 | the page's initial session is valid |
| Annotations.SelectTextValid | src/Text/FileContentDisplay.jsx:43-51 | the selection handler keeps the session valid |
| Annotations.ChooseLabelValid | src/Text/FileContentDisplay.jsx:53-76 | the label handler keeps the session valid: no two annotations claim the same text in the same scope |
| Annotations.ProposeTwice | src/Text/FileContentDisplay.jsx:57-74 | labelling the same selection twice in one scope stores it once and sets the message on the second attempt |
| Annotations.RecordScopesIndependent | src/Text/FileContentDisplay.jsx:58-68 | in record mode, the same text can be labelled separately in two records |
| Ordering.SortByLength | src/Text/FileContentDisplay.jsx:106-108 | the result is a permutation of the store, longest text first, and keeps the order of equal-length annotations |
| Ordering.StableSortUnique | src/Text/FileContentDisplay.jsx:106-108 | two longest-first orders with the same equal-length runs are equal, so the sort is the unique stable one |
| Ordering.SortIdempotent | src/Text/FileContentDisplay.jsx:106-108 | sorting twice gives the same order as sorting once |
| Ordering.SortedIsFixed | src/Text/FileContentDisplay.jsx:106-108 | a store already longest-first is left unchanged |
| Ordering.InsertUnique | src/Text/FileContentDisplay.jsx:106-108 | inserting an annotation that clashes with nothing keeps a store duplicate-free |
| Ordering.SortKeepsValid | src/Text/FileContentDisplay.jsx:106-108 | the in-place sort keeps the store valid |
| Segments.Advance | src/Text/FileContentDisplay.jsx:113-137 | a missed annotation emits nothing and leaves the cursor; a found one emits the non-empty gap and one highlight at its first occurrence after the cursor, and moves the cursor past it |
| Segments.Rest | src/Text/FileContentDisplay.jsx:140-146 | the remainder after the cursor is one plain piece covering it, or nothing |
| Segments.Scan | src/Text/FileContentDisplay.jsx:110-146 | the pieces cover the line from the cursor to the end, in order and without overlap; no plain piece is empty or next to another plain piece; the highlights are a subsequence of the annotations |
| Segments.RenderLine | src/Text/FileContentDisplay.jsx:104-149 | the view shows exactly the line; the bare line only when it is empty; otherwise pieces that tile it, highlighting sorted annotations in order |
| Segments.RenderLinesView | src/Text/FileContentDisplay.jsx:102-108 | the in-place sort on each line never changes what another line shows, and it leaves the store sorted |
| Segments.RenderLines | src/Text/FileContentDisplay.jsx:98-153 | one view per line, each showing exactly its line, and the store left as a permutation of itself (its relation to `RenderLine` is `RenderLinesView`) |
| Segments.RenderAfterSort | src/Text/FileContentDisplay.jsx:106-113 | rendering against an already sorted store gives the same view |
| Segments.NothingMatches | src/Text/FileContentDisplay.jsx:113-148 | when no annotation occurs in the line, it is shown as one plain piece, or bare when empty |
| Segments.ScanMissesAll | src/Text/FileContentDisplay.jsx:113-146 | annotations that do not occur emit nothing |
| Segments.HighlightFromStore | src/Text/FileContentDisplay.jsx:123-134 | every highlight shows some stored annotation's text and label |
| Segments.HighlightsIncrease | src/Text/FileContentDisplay.jsx:113-136 | highlights start at strictly increasing offsets |
| Segments.TilesText | src/Text/FileContentDisplay.jsx:117-143 | tiling pieces show exactly the covered part of the line |
| Segments.TilesOrdered | src/Text/FileContentDisplay.jsx:117-143 | tiling pieces lie inside the covered range and each ends before the next starts |
| Colorize.ForRecord | src/Text/FileContentDisplay.jsx:80-81 | keeps exactly the annotations of the current record, each as many times as the store holds it, in store order |
| Colorize.WrapAll | src/Text/FileContentDisplay.jsx:84-94 | the text never shrinks, and is unchanged when no annotation text occurs in it |
| Colorize.ColorizeAsWritten | src/Text/FileContentDisplay.jsx:78-96 | with no annotation for the record, the serialised record is returned unchanged |
| Colorize.SplitPlainHtml | src/Text/FileContentDisplay.jsx:89-93 | splitting a plain text at every occurrence renders to the same markup as one global replace |
| Colorize.SplitPlainHits | src/Text/FileContentDisplay.jsx:89-93 | after the split, every highlight is an occurrence of the annotation and no occurrence lies wholly inside a plain piece, so the global replace wraps every leftmost non-overlapping occurrence and every other occurrence overlaps a wrapped one |
| Colorize.SingleAnnotationAgrees | src/Text/FileContentDisplay.jsx:78-96 | with one annotation for the record, the corrected and as-written colourings give the same markup |
| Colorize.MarkupRewrapped | src/Text/FileContentDisplay.jsx:84-94 | as written, a "span" annotation rewraps the opening tag that a longer annotation inserted |
| Colorize.ColorizePieces | src/Text/FileContentDisplay.jsx:78-96 | the corrected colouring's pieces tile the serialised record and show exactly its text; what they highlight is stated by `ColorizeMarks` |
| Colorize.Colorize | src/Text/FileContentDisplay.jsx:78-96 | the corrected coloured record is never shorter than the record text, and is the record text itself when no annotation belongs to the record; it is the markup of the pieces `ColorizeMarks` describes |
| Colorize.ColorizeMarks | src/Text/FileContentDisplay.jsx:78-96 | for every record and store, each highlighted piece of the corrected colouring carries the text and label of an annotation of the current record, and no plain piece holds an occurrence of any non-empty annotation of the current record, so no occurrence lies wholly inside a plain piece and each one overlaps a highlight |
| Colorize.RefineMarked | src/Text/FileContentDisplay.jsx:84-94 | applying one more annotation keeps every highlight an applied annotation and adds its text to what no plain piece holds |
| Colorize.MarkAllMarked | src/Text/FileContentDisplay.jsx:84-94 | applying the annotations in turn leaves pieces marked by all of them |
| Colorize.RefineTiles | src/Text/FileContentDisplay.jsx:84-94 | applying one annotation to tiling pieces keeps them tiling |
| Colorize.MarkAllTiles | src/Text/FileContentDisplay.jsx:84-94 | applying all annotations in turn keeps the pieces tiling the record |
| Colorize.CorrectedWrapsOnce | src/Text/FileContentDisplay.jsx:78-96 | corrected, the input of the finding shows the longer annotation wrapped once, with its text right after its tag |
| Colorize.AsWrittenDiffers | src/Text/FileContentDisplay.jsx:84-94 | on that input, the as-written and corrected colourings differ |
| Page.Step | src/Text/FileContentDisplay.jsx:43-110 | no event removes an annotation; a render only reorders the store and keeps the selection and the message |
| Page.Run | src/Text/FileContentDisplay.jsx:43-110 | over any run of events, every annotation once stored stays stored |
| Page.RenderStep | src/Text/FileContentDisplay.jsx:98-110 | a text render leaves the store exactly as rendering the document's lines does: sorted longest first once a line is shown, untouched for an empty document |
| Page.RenderSorts | src/Text/FileContentDisplay.jsx:106-108 | after a text render of a non-empty document, the store holds the same annotations, longest first, and the selection and message are kept |
| Page.RenderValid | src/Text/FileContentDisplay.jsx:106-108 | a render keeps the session valid |
| Page.RunValid | src/Text/FileContentDisplay.jsx:43-110 | any sequence of selections, label picks and renders keeps a valid session valid |
| Page.ReachableValid | src/Text/FileContentDisplay.jsx:14-110 | every session reachable from the initial one by selections, label picks and renders is valid: no two annotations claim the same text in the same scope |
| Navigation.Previous | src/Text/FileContentDisplay.jsx:274-275 | from a non-negative index it moves back one, stays at 0 on the first record, and is a no-op exactly there; from a negative index it goes to 0 |
| Navigation.Next | src/Text/FileContentDisplay.jsx:292-297 | below the count, it moves on one but never past the last record, and is a no-op exactly on the last one; at or past the count it goes to the last index |
| Navigation.ButtonsAgree | src/Text/FileContentDisplay.jsx:274-297 | within range, a button is disabled exactly when pressing it would not move, and both presses stay in range |
| Navigation.Walk | src/Text/FileContentDisplay.jsx:274-297 | any sequence of presses from an in-range index stays in range, and moves at most one record per press |
| Navigation.ForwardsReachEnd | src/Text/FileContentDisplay.jsx:292-297 | n presses of Next move n records on, stopping at the last |
| Navigation.WalkConcat | src/Text/FileContentDisplay.jsx:274-297 | walking two press sequences is walking their concatenation |
| Navigation.StepsUndo | src/Text/FileContentDisplay.jsx:274-297 | Previous undoes an enabled Next, and Next undoes an enabled Previous |
| Navigation.EmptyDocument | src/Text/FileContentDisplay.jsx:263-297 | for a record document with no records (the buttons are shown only for the "json" file type, so this takes a caller passing an empty record list), the start index is out of range, Next moves it to -1, and Previous, enabled there, brings it back to 0 |
| Projects.AnySameName | src/ProjectStructure/ProjectList.jsx:11-13 | true exactly when some listed project has the name up to lower-casing |
| Projects.AddProject | src/ProjectStructure/ProjectList.jsx:10-21 | a duplicate name raises the alert and leaves the list and the dialog untouched; otherwise the project is appended and the dialog closed |
| Projects.OpenModal | src/ProjectStructure/ProjectList.jsx:35-36 | opens the dialog and keeps the list |
| Projects.CloseModal | src/ProjectStructure/ProjectList.jsx:73 | closes the dialog and keeps the list |
| Projects.AddKeepsDistinct | src/ProjectStructure/ProjectList.jsx:10-21 | an add keeps the listed names distinct up to lower-casing |
| Projects.AddAllDistinct | src/ProjectStructure/ProjectList.jsx:10-21 | any sequence of adds keeps the names distinct |
| Projects.FromEmptyDistinct | src/ProjectStructure/ProjectList.jsx:6-21 | from the initial empty list, no two projects ever share a name up to case |
| Projects.AddAllExtends | src/ProjectStructure/ProjectList.jsx:19 | adds only append: the old list is a prefix, and every new entry was submitted |
| Projects.AddAllCovers | src/ProjectStructure/ProjectList.jsx:10-21 | after the adds, every submitted name is taken |
| Projects.CaseDuplicateRejected | src/ProjectStructure/ProjectList.jsx:11-16 | "Tax" then "TAX" lists one project, alerts on the second, and leaves the reopened dialog open |
| Scenarios.Scenario | src/Text/FileContentDisplay.jsx:104-149 | the sample line with "Acme" and "Acme." renders to the expected five pieces, the longer annotation taking the first "Acme" |

## Left out

- **Rendering.** JSX, styling and React state plumbing are not modelled: every `set…` is a field update of an immutable state value. So is the rendering of pieces to elements.
  - The `key` strings are not modelled; the offset they are built from is the `at` field of a piece.
- **Browser and library inputs.** `window.getSelection()` is the raw string given to `SelectText`. `JSON.stringify(content, null, 2)` is the record text given to the colouring. `alert` is the `alert` field of an add's result.
- **Regular expressions.** The engine is not modelled. The escaped pattern matches its text literally, so the replace is modelled as a literal left-to-right global replace.
- **Characters.** Strings are sequences of Unicode scalar values, not UTF-16 code units. For text outside the Basic Multilingual Plane, offsets differ. Text lengths differ too, so the longest-first order (src/Text/FileContentDisplay.jsx:82 and :106-108) can differ for such texts.
- **`renderContent` dispatch** (text view, record view, nothing for other file types) is not modelled as a function. Its two branches are modelled: `Segments.RenderLines` and `Colorize.ColorizeAsWritten`.
- **Annotation list.** The `renderAnnotations` list filter is not modelled. Its Delete button has no handler, so nothing deletes an annotation.
- **Routing and the counter.** `handleProjectClick` (routing) and the "Item n of m" counter are not modelled.
- **Other screens.** The upload page, the label-creation page, the sidebar, the navbar and the app shell are not part of this model.
- Projects.AsciiLower: lower-cases ASCII capitals only, not the full Unicode mapping of `toLowerCase`. The general results take lower-casing as a parameter; this instance serves the worked example.
- Strings.ReplaceAll: its own contract states only that the text never shrinks. What it wraps is stated on the piece-based split, by `Colorize.SplitPlainHtml` (same markup) and `Colorize.SplitPlainHits` (no occurrence lies wholly inside an unwrapped piece).
- Colorize.WrapAll: states growth and the no-occurrence case only. Its relation to the corrected colouring is stated by `SingleAnnotationAgrees` and `AsWrittenDiffers`.
- Colorize.ColorizeAsWritten: states only the no-annotation case on its own, for the same reason.
- Colorize.ColorizeMarks: the corrected colouring also drops nested highlights. As written, a shorter annotation whose text occurs inside a longer one's text is wrapped again inside the first span, with no markup involved. The corrected colouring leaves that occurrence part of the longer highlight, as the text view does. So the two colourings differ on such inputs too, not only when an annotation text occurs in the markup.
- Colorize.SingleAnnotationAgrees: the as-written and corrected colourings are proved equal for a single annotation of the record only. Their agreement in general, when no annotation text occurs inside a tag or inside another annotation's text, is not proved.

## Findings

| source | as written | input that shows it | evidently intended | confidence | as-written member | corrected member |
|---|---|---|---|---|---|---|
| src/Text/FileContentDisplay.jsx:84-94 | each annotation's global replace runs over the output of the previous ones, markup included | two annotations on the current record: one with a text longer than "span", and one whose text is "span"; the record text contains the longer one and no "span" before it | each annotation highlights occurrences in the record text only, never inside tags inserted for another annotation; highlights do not nest, so, as in the text view, the longer annotation wins and a shorter one's occurrence inside or across its highlight stays part of it | not executed | Colorize.MarkupRewrapped | Colorize.ColorizeMarks |

=== FILE: annotations.dfy ===
/**
 The annotation store of the file-content page: the selection handler,
 the acceptance rule of the label picker, and the invariants the store keeps.
 */
module Annotations {
  import opened Wrappers
  import opened Strings
  import opened Labels

  /** The `fileType` the page is opened with: "text", "json", or anything else
      (the upload page passes none at all). The store only distinguishes
      text from not-text. */
  datatype FileType = Text | Json | Other

  /** The scope index stored with a text-mode annotation. */
  const DocumentWide: int := -1

  /** One stored annotation: the selected text, the label object chosen for it
      (`label` in the page; the word is reserved in Dafny),
      and the record it belongs to (`DocumentWide` in text mode). */
  datatype Annotation = Annotation(text: string, tag: Label, index: int)

  /** The index a new annotation is stored with. */
  function ScopeIndex(ft: FileType, cursor: int): int {
    if ft == Text then DocumentWide else cursor
  }

  /** `a` already holds `text` in the scope the duplicate check compares
      against: anywhere in text mode, the same record otherwise. */
  predicate Claims(a: Annotation, text: string, ft: FileType, cursor: int) {
    a.text == text && (ft == Text || a.index == cursor)
  }

  /** Two stored annotations that the duplicate check would have kept apart. */
  predicate Clash(a: Annotation, b: Annotation, ft: FileType) {
    Claims(a, b.text, ft, b.index)
  }

  /** `annotations.some(...)` of the duplicate check. */
  predicate AlreadyAnnotated(store: seq<Annotation>, text: string, ft: FileType, cursor: int) {
    exists i :: 0 <= i < |store| && Claims(store[i], text, ft, cursor)
  }

  /** Why a proposal adds nothing. */
  datatype Rejection = EmptySelection | UnknownLabel | DuplicateText

  /**
   The acceptance rule of the label picker: the store after labelling the
   current selection with `key`, or why nothing is added. Both an empty
   selection and an unknown key are silent no-ops in the page; only a
   duplicate produces a message.
   */
  function Propose(store: seq<Annotation>, selected: string, key: string, ft: FileType, cursor: int)
    : (r: Result<seq<Annotation>, Rejection>)
    ensures r == Failure(EmptySelection) <==> selected == []
    ensures r == Failure(UnknownLabel) <==> selected != [] && Lookup(key).None?
    ensures r == Failure(DuplicateText) <==>
              selected != [] && Lookup(key).Some? && AlreadyAnnotated(store, selected, ft, cursor)
    ensures r.Success? ==>
              && |r.value| == |store| + 1
              && r.value[..|store|] == store
              && r.value[|store|].text == selected
              && r.value[|store|].tag.key == key
              && r.value[|store|].tag in Registry
              && r.value[|store|].index == (if ft == Text then -1 else cursor)
  {
    if selected == [] then Failure(EmptySelection)
    else
      match Lookup(key)
      case None => Failure(UnknownLabel)
      case Some(l) =>
        if AlreadyAnnotated(store, selected, ft, cursor) then Failure(DuplicateText)
        else Success(store + [Annotation(selected, l, ScopeIndex(ft, cursor))])
  }

  /** The page state the two handlers work on. */
  datatype Session = Session(annotations: seq<Annotation>, selectedText: string, errorMessage: string)

  const InitialSession := Session([], "", "")

  const DuplicateMessage := "This text has already been annotated."

  /** `handleTextSelect`: the page's mouse-up handler, given what the browser
      reports as selected. */
  function SelectText(s: Session, raw: string): (r: Session)
    ensures r.annotations == s.annotations
    ensures IsTrimmed(r.selectedText)
    ensures r.selectedText == [] <==> AllWhitespace(raw)
    ensures r.selectedText != [] ==> r.selectedText == Trim(raw)
    ensures r.errorMessage == (if AllWhitespace(raw) then s.errorMessage else "")
  {
    var selection := Trim(raw);
    if selection != [] then s.(selectedText := selection, errorMessage := "")
    else s.(selectedText := "")
  }

  /** `handleLabelChange`: the label picker's change handler. */
  function ChooseLabel(s: Session, key: string, ft: FileType, cursor: int): (r: Session)
    ensures s.selectedText == [] || Lookup(key).None? ==> r == s
    ensures (s.selectedText != [] && Lookup(key).Some? && AlreadyAnnotated(s.annotations, s.selectedText, ft, cursor))
              ==> r == s.(errorMessage := DuplicateMessage)
    ensures (s.selectedText != [] && Lookup(key).Some? && !AlreadyAnnotated(s.annotations, s.selectedText, ft, cursor))
              ==> && r.annotations == s.annotations + [Annotation(s.selectedText, Lookup(key).value, ScopeIndex(ft, cursor))]
                  && r.selectedText == []
                  && r.errorMessage == s.errorMessage
  {
    match Propose(s.annotations, s.selectedText, key, ft, cursor)
    case Success(store) => s.(annotations := store, selectedText := "")
    case Failure(DuplicateText) => s.(errorMessage := DuplicateMessage)
    case Failure(_) => s
  }

  /** No two annotations of the store claim the same text in the same scope. */
  predicate Unique(store: seq<Annotation>, ft: FileType) {
    forall i, j :: 0 <= i < |store| && 0 <= j < |store| && i != j ==> !Clash(store[i], store[j], ft)
  }

  /** What every stored annotation satisfies: a non-empty trimmed text, a
      registry label, and the document-wide index in text mode. */
  predicate WellFormed(a: Annotation, ft: FileType) {
    && a.text != []
    && IsTrimmed(a.text)
    && a.tag in Registry
    && (ft == Text ==> a.index == DocumentWide)
  }

  predicate StoreValid(store: seq<Annotation>, ft: FileType) {
    Unique(store, ft) && forall i :: 0 <= i < |store| ==> WellFormed(store[i], ft)
  }

  predicate SessionValid(s: Session, ft: FileType) {
    StoreValid(s.annotations, ft) && IsTrimmed(s.selectedText)
  }

  /** Appending an annotation that nothing claims keeps the store valid. */
  lemma {:induction false} AppendValid(store: seq<Annotation>, a: Annotation, ft: FileType)
    requires StoreValid(store, ft)
    requires WellFormed(a, ft)
    requires !AlreadyAnnotated(store, a.text, ft, a.index)
    ensures StoreValid(store + [a], ft)
  {
    var t := store + [a];
    forall i, j | 0 <= i < |t| && 0 <= j < |t| && i != j
      ensures !Clash(t[i], t[j], ft)
    {
      if j == |store| {
        assert !Claims(store[i], a.text, ft, a.index);
      } else if i == |store| {
        assert !Claims(store[j], a.text, ft, a.index);
      }
    }
  }

  /** The page opens with a valid session: no annotations, nothing selected. */
  lemma InitialValid(ft: FileType)
    ensures SessionValid(InitialSession, ft)
  {
  }

  /** Both handlers keep the session valid. */
  lemma SelectTextValid(s: Session, raw: string, ft: FileType)
    requires SessionValid(s, ft)
    ensures SessionValid(SelectText(s, raw), ft)
  {
  }

  lemma {:induction false} ChooseLabelValid(s: Session, key: string, ft: FileType, cursor: int)
    requires SessionValid(s, ft)
    ensures SessionValid(ChooseLabel(s, key, ft, cursor), ft)
  {
    if s.selectedText != [] && Lookup(key).Some? && !AlreadyAnnotated(s.annotations, s.selectedText, ft, cursor) {
      var a := Annotation(s.selectedText, Lookup(key).value, ScopeIndex(ft, cursor));
      assert !AlreadyAnnotated(s.annotations, a.text, ft, a.index) by {
        if ft != Text {
          assert a.index == cursor;
        } else {
          forall i | 0 <= i < |s.annotations|
            ensures !Claims(s.annotations[i], a.text, ft, a.index)
          {
            assert !Claims(s.annotations[i], s.selectedText, ft, cursor);
          }
        }
      }
      AppendValid(s.annotations, a, ft);
    }
  }

  /** Labelling the same selection twice in the same scope stores it once:
      the second attempt is a duplicate and only sets the message. */
  lemma ProposeTwice(s: Session, key: string, key2: string, ft: FileType, cursor: int)
    requires s.selectedText != [] && Lookup(key).Some? && Lookup(key2).Some?
    requires !AlreadyAnnotated(s.annotations, s.selectedText, ft, cursor)
    ensures var s1 := ChooseLabel(s, key, ft, cursor);
            var s2 := ChooseLabel(s1.(selectedText := s.selectedText), key2, ft, cursor);
            && |s2.annotations| == |s.annotations| + 1
            && s2.annotations == s1.annotations
            && s2.errorMessage == DuplicateMessage
  {
    var s1 := ChooseLabel(s, key, ft, cursor);
    assert s1.annotations[|s.annotations|].text == s.selectedText;
    assert Claims(s1.annotations[|s.annotations|], s.selectedText, ft, cursor);
  }

  /** In record mode the same text can be labelled independently in two records. */
  lemma RecordScopesIndependent(s: Session, key: string, ft: FileType, c1: int, c2: int)
    requires ft != Text && c1 != c2
    requires s.selectedText != [] && Lookup(key).Some?
    requires !AlreadyAnnotated(s.annotations, s.selectedText, ft, c1)
    requires !AlreadyAnnotated(s.annotations, s.selectedText, ft, c2)
    ensures var s1 := ChooseLabel(s, key, ft, c1);
            var s2 := ChooseLabel(s1.(selectedText := s.selectedText), key, ft, c2);
            && |s2.annotations| == |s.annotations| + 2
            && s2.annotations[|s.annotations|].index == c1
            && s2.annotations[|s.annotations| + 1].index == c2
  {
    var s1 := ChooseLabel(s, key, ft, c1);
    var t := s1.annotations;
    assert !AlreadyAnnotated(t, s.selectedText, ft, c2) by {
      forall i | 0 <= i < |t| ensures !Claims(t[i], s.selectedText, ft, c2) {
        if i < |s.annotations| {
          assert t[i] == s.annotations[i];
        }
      }
    }
  }
}

=== FILE: colorize.dfy ===
/**
 The record-mode view: the serialised record is coloured by replacing, for
 each annotation of the current record (longest text first), every
 occurrence of its text with the text wrapped in a coloured span.
 */
module Colorize {
  import opened Strings
  import opened Labels
  import opened Annotations
  import opened Ordering
  import opened Segments

  /** The opening tag the page wraps a highlighted occurrence in. */
  function OpenTag(l: Label): string {
    "<span style=\"background-color: " + l.bgColor + "; color: " + l.textColor + "\">"
  }

  const CloseTag: string := "</span>"

  /** The annotations of record `cursor`, in store order. */
  function ForRecord(store: seq<Annotation>, cursor: int): (r: seq<Annotation>)
    ensures forall a :: a in r <==> a in store && a.index == cursor
    ensures forall a :: multiset(r)[a] == if a.index == cursor then multiset(store)[a] else 0
    ensures Subseq(r, store)
    decreases |store|
  {
    if store == [] then []
    else
      var rest := ForRecord(store[1..], cursor);
      assert store == [store[0]] + store[1..];
      assert multiset(store) == multiset{store[0]} + multiset(store[1..]);
      if store[0].index == cursor then
        assert multiset([store[0]] + rest) == multiset{store[0]} + multiset(rest);
        assert ([store[0]] + rest)[1..] == rest;
        [store[0]] + rest
      else
        SubseqExtend(rest, store[1..], store[0]);
        rest
  }

  /** The `forEach` of `colorizeJsonText`: one global replace per annotation,
      each applied to the output of the previous one. */
  function WrapAll(s: string, anns: seq<Annotation>): (r: string)
    ensures |s| <= |r|
    ensures (forall i :: 0 <= i < |anns| ==> anns[i].text != [] && Absent(s, anns[i].text)) ==> r == s
    decreases |anns|
  {
    if anns == [] then s
    else
      var s' := ReplaceAll(s, anns[0].text, OpenTag(anns[0].tag), CloseTag);
      ReplaceAbsent(s, anns[0].text, OpenTag(anns[0].tag), CloseTag);
      WrapAll(s', anns[1..])
  }

  /**
   `colorizeJsonText` as the page has it. Each replace runs over the output of
   the previous one, markup included (see `MarkupRewrapped`).
   */
  function ColorizeAsWritten(json: string, store: seq<Annotation>, cursor: int): (html: string)
    ensures |json| <= |html|
    ensures (forall a :: a in store ==> a.index != cursor) ==> html == json
  {
    var anns := ForRecord(store, cursor);
    assert (forall a :: a in store ==> a.index != cursor) ==> anns == [] by {
      if anns != [] {
        assert anns[0] in anns;
      }
    }
    WrapAll(json, SortByLength(anns))
  }

  /** The markup of a sequence of pieces, each highlight wrapped in
      `open(label)` and `close`. */
  function Markup(parts: seq<Segment>, open: Label -> string, close: string): string
    decreases |parts|
  {
    if parts == [] then ""
    else
      (match parts[0]
       case Plain(_, t) => t
       case Hi(_, t, l) => open(l) + t + close)
      + Markup(parts[1..], open, close)
  }

  /** The markup the page renders pieces to. */
  function Html(parts: seq<Segment>): string {
    Markup(parts, OpenTag, CloseTag)
  }

  /**
   Cut the plain text `t`, which sits at offset `at` of the record text, at
   every occurrence of `a.text`, scanning left to right as the global
   replace does.
   */
  function SplitPlain(t: string, at: nat, a: Annotation): seq<Segment>
    requires a.text != []
  {
    SplitFrom(t, at, a, 0)
  }

  /** The cut of `t` from its offset `k` on. */
  function SplitFrom(t: string, at: nat, a: Annotation, k: nat): seq<Segment>
    requires a.text != [] && k <= |t|
    decreases |t| - k
  {
    var i := IndexOf(t, a.text, k);
    if i < 0 then PlainTail(t, at, k)
    else Cut(t, at, k, i, a) + SplitFrom(t, at, a, i + |a.text|)
  }

  /** What is left of `t` from offset `k` on, as one plain piece or nothing. */
  function PlainTail(t: string, at: nat, k: nat): seq<Segment>
    requires k <= |t|
  {
    if k == |t| then [] else [Plain(at + k, t[k..])]
  }

  /** Apply one annotation to the pieces: plain pieces are split at its
      occurrences, highlighted pieces are left alone. */
  function Refine(parts: seq<Segment>, a: Annotation): seq<Segment>
    requires a.text != []
    decreases |parts|
  {
    if parts == [] then []
    else
      var head := match parts[0]
        case Plain(at, t) => SplitPlain(t, at, a)
        case Hi(_, _, _) => [parts[0]];
      head + Refine(parts[1..], a)
  }

  /** The pieces of the record text after every annotation has been applied
      in turn; an annotation with an empty text marks nothing. */
  function MarkAll(parts: seq<Segment>, anns: seq<Annotation>): seq<Segment>
    decreases |anns|
  {
    if anns == [] then parts
    else if anns[0].text == [] then MarkAll(parts, anns[1..])
    else MarkAll(Refine(parts, anns[0]), anns[1..])
  }

  /** The record text as a single plain piece. */
  function Initial(json: string): (r: seq<Segment>)
    ensures TilesTo(json, r, 0, |json|)
  {
    if json == [] then [] else
      assert json[0..|json|] == json;
      PieceTiles(json, Plain(0, json));
      [Plain(0, json)]
  }

  /**
   Record colouring as evidently intended: the same annotations in the same
   order, longest first, but an annotation only ever matches record text that
   no earlier annotation has highlighted, never the markup. Highlights do not
   nest: an occurrence inside or across an earlier, longer highlight is left
   as part of it, as in the text view. Returns the pieces, which lay out
   exactly the record text; `Html` of them is the coloured record.
   */
  function ColorizePieces(json: string, store: seq<Annotation>, cursor: int): (r: seq<Segment>)
    ensures TilesTo(json, r, 0, |json|)
    ensures Texts(r) == json
  {
    var anns := SortByLength(ForRecord(store, cursor));
    MarkAllTiles(json, Initial(json), anns);
    var r := MarkAll(Initial(json), anns);
    TilesText(json, r, 0, |json|);
    assert json[0..|json|] == json;
    r
  }

  /** The corrected coloured record: markup that shows the record text with
      some of its pieces wrapped in tags. */
  function Colorize(json: string, store: seq<Annotation>, cursor: int): (html: string)
    ensures |json| <= |html|
    ensures (forall a :: a in store ==> a.index != cursor) ==> html == json
  {
    var r := ColorizePieces(json, store, cursor);
    MarkupLonger(r, OpenTag, CloseTag);
    NoRecordHtml(json, store, cursor);
    Html(r)
  }

  lemma NoRecordHtml(json: string, store: seq<Annotation>, cursor: int)
    ensures (forall a :: a in store ==> a.index != cursor) ==> Html(ColorizePieces(json, store, cursor)) == json
  {
    if forall a :: a in store ==> a.index != cursor {
      NoRecordPieces(json, store, cursor);
      InitialHtml(json);
    }
  }

  /** With no annotation for the record, the record text stays one plain piece. */
  lemma NoRecordPieces(json: string, store: seq<Annotation>, cursor: int)
    requires forall a :: a in store ==> a.index != cursor
    ensures ColorizePieces(json, store, cursor) == Initial(json)
  {
    var anns := ForRecord(store, cursor);
    assert SortByLength(anns) == [];
  }

  lemma InitialHtml(json: string)
    ensures Html(Initial(json)) == json
  {
    if json != [] {
      var p := [Plain(0, json)];
      assert p[1..] == [];
      assert Markup(p, OpenTag, CloseTag) == json + Markup([], OpenTag, CloseTag);
      assert json + "" == json;
    }
  }

  /** Markup shows the pieces' texts and adds tags around the highlights. */
  lemma {:induction false} MarkupLonger(parts: seq<Segment>, open: Label -> string, close: string)
    ensures |Texts(parts)| <= |Markup(parts, open, close)|
    decreases |parts|
  {
    if parts != [] {
      MarkupLonger(parts[1..], open, close);
    }
  }

  /** The cut of a plain text `t` that sits at offset `at` of the line tiles
      its part of the line: it shows `t` and its pieces follow one another. */
  lemma SplitFromTiles(line: string, t: string, at: nat, a: Annotation, k: nat)
    requires a.text != [] && k <= |t|
    requires at + |t| <= |line| && line[at..at + |t|] == t
    ensures TilesTo(line, SplitFrom(t, at, a, k), at + k, at + |t|)
  {
    SplitFromTexts(t, at, a, k);
    SplitFromPlaced(t, at, a, k);
    SliceOfSlice(line, t, at, k, |t|);
    assert t[k..|t|] == t[k..];
    PlacedTiles(line, SplitFrom(t, at, a, k), at + k, at + |t|);
  }

  /** The pieces start where the previous one ends, the first at `from`. */
  predicate Placed(parts: seq<Segment>, from: nat)
    decreases |parts|
  {
    parts == [] || (parts[0].at == from && Placed(parts[1..], from + |parts[0].text|))
  }

  /** Pieces that are placed one after another and show `line[from..to]` tile it. */
  lemma {:induction false} PlacedTiles(line: string, parts: seq<Segment>, from: nat, to: nat)
    requires from <= to <= |line| && Texts(parts) == line[from..to] && Placed(parts, from)
    ensures TilesTo(line, parts, from, to)
    decreases |parts|
  {
    if parts != [] {
      var n := from + |parts[0].text|;
      SplitSlice(line, from, to, parts[0].text, Texts(parts[1..]));
      PlacedTiles(line, parts[1..], n, to);
    }
  }

  lemma SplitSlice(line: string, from: nat, to: nat, x: string, y: string)
    requires from <= to <= |line| && line[from..to] == x + y
    ensures from + |x| <= to && OccursAt(line, x, from) && line[from + |x|..to] == y
  {
    assert line[from..from + |x|] == (x + y)[..|x|];
    assert line[from + |x|..to] == (x + y)[|x|..];
  }

  /** No tag and no closing text: markup that shows only the texts. */
  function NoTag(l: Label): string {
    ""
  }

  lemma {:induction false} TextsAsMarkup(parts: seq<Segment>)
    ensures Texts(parts) == Markup(parts, NoTag, "")
    decreases |parts|
  {
    if parts != [] {
      TextsAsMarkup(parts[1..]);
      assert parts[0].text == "" + parts[0].text + "";
    }
  }

  /** The cut shows the text it cuts. */
  lemma SplitFromTexts(t: string, at: nat, a: Annotation, k: nat)
    requires a.text != [] && k <= |t|
    ensures Texts(SplitFrom(t, at, a, k)) == t[k..]
  {
    TextsAsMarkup(SplitFrom(t, at, a, k));
    SplitFromMarkup(t, at, a, k, NoTag, "");
    assert NoTag(a.tag) == [];
    ReplaceFromNothing(t, a.text, k);
  }

  lemma {:induction false} PlacedConcat(x: seq<Segment>, y: seq<Segment>, from: nat)
    requires Placed(x, from) && Placed(y, from + |Texts(x)|)
    ensures Placed(x + y, from)
    decreases |x|
  {
    if x == [] {
      assert x + y == y;
    } else {
      assert (x + y)[0] == x[0] && (x + y)[1..] == x[1..] + y;
      PlacedConcat(x[1..], y, from + |x[0].text|);
    }
  }

  lemma CutPlaced(s: string, at: nat, from: nat, index: nat, a: Annotation)
    requires from <= index <= |s|
    ensures Placed(Cut(s, at, from, index, a), at + from)
    ensures |Texts(Cut(s, at, from, index, a))| == index - from + |a.text|
  {
    var hit := [Hi(at + index, a.text, a.tag)];
    assert hit[1..] == [];
    if index > from {
      var gap := [Plain(at + from, s[from..index])];
      assert gap[1..] == [];
      PlacedConcat(gap, hit, at + from);
      assert Cut(s, at, from, index, a) == gap + hit;
      assert Texts(gap + hit) == s[from..index] + a.text by {
        assert (gap + hit)[1..] == hit;
      }
    } else {
      assert Cut(s, at, from, index, a) == hit by { assert [] + hit == hit; }
    }
  }

  lemma {:induction false} SplitFromPlaced(t: string, at: nat, a: Annotation, k: nat)
    requires a.text != [] && k <= |t|
    ensures Placed(SplitFrom(t, at, a, k), at + k)
    decreases |t| - k
  {
    var i := IndexOf(t, a.text, k);
    if i < 0 {
      TailPlaced(t, at, a, k);
    } else {
      SplitFromPlaced(t, at, a, i + |a.text|);
      SplitFromUnfold(t, at, a, k, i);
      CutPlaced(t, at, k, i, a);
      PlacedStep(SplitFrom(t, at, a, k), Cut(t, at, k, i, a), SplitFrom(t, at, a, i + |a.text|),
                 at + k, at + (i + |a.text|));
    }
  }

  /** With no occurrence left, the cut is the placed remainder. */
  lemma TailPlaced(t: string, at: nat, a: Annotation, k: nat)
    requires a.text != [] && k <= |t| && IndexOf(t, a.text, k) < 0
    ensures Placed(SplitFrom(t, at, a, k), at + k)
  {
    assert SplitFrom(t, at, a, k) == PlainTail(t, at, k);
    assert [Plain(at + k, t[k..])][1..] == [];
  }

  /** Placed pieces followed by pieces placed where they end are placed. */
  lemma PlacedStep(all: seq<Segment>, x: seq<Segment>, y: seq<Segment>, from: nat, mid: nat)
    requires all == x + y && Placed(x, from) && Placed(y, mid) && mid == from + |Texts(x)|
    ensures Placed(all, from)
  {
    PlacedConcat(x, y, from);
  }

  lemma {:induction false} RefineTiles(line: string, parts: seq<Segment>, a: Annotation, from: nat, to: nat)
    requires a.text != []
    requires TilesTo(line, parts, from, to)
    ensures TilesTo(line, Refine(parts, a), from, to)
    decreases |parts|
  {
    if parts != [] {
      var m := from + |parts[0].text|;
      RefineTiles(line, parts[1..], a, m, to);
      var head := match parts[0]
        case Plain(at, t) => SplitPlain(t, at, a)
        case Hi(_, _, _) => [parts[0]];
      assert TilesTo(line, head, from, m) by {
        if parts[0].Hi? {
          assert head[1..] == [];
        } else {
          SplitFromTiles(line, parts[0].text, from, a, 0);
        }
      }
      TilesConcat(line, head, Refine(parts[1..], a), from, m, to);
    }
  }

  lemma {:induction false} MarkAllTiles(line: string, parts: seq<Segment>, anns: seq<Annotation>)
    requires TilesTo(line, parts, 0, |line|)
    ensures TilesTo(line, MarkAll(parts, anns), 0, |line|)
    decreases |anns|
  {
    if anns != [] {
      if anns[0].text == [] {
        MarkAllTiles(line, parts, anns[1..]);
      } else {
        RefineTiles(line, parts, anns[0], 0, |line|);
        MarkAllTiles(line, Refine(parts, anns[0]), anns[1..]);
      }
    }
  }

  /** Every highlight of `parts` is an occurrence of `a`, and no plain piece
      holds one. */
  predicate OnlyHits(parts: seq<Segment>, a: Annotation) {
    forall m :: 0 <= m < |parts| ==>
      && (parts[m].Plain? ==> Absent(parts[m].text, a.text))
      && (parts[m].Hi? ==> parts[m].text == a.text && parts[m].tag == a.tag)
  }

  /** Every highlight of the cut is an occurrence of the annotation, and no
      occurrence lies wholly inside a plain piece: together with
      `SplitPlainHtml`, the global replace wraps every leftmost
      non-overlapping occurrence, and every other occurrence overlaps one. */
  lemma SplitPlainHits(t: string, at: nat, a: Annotation)
    requires a.text != []
    ensures OnlyHits(SplitPlain(t, at, a), a)
  {
    SplitFromHits(t, at, a, 0);
  }

  lemma {:induction false} SplitFromHits(t: string, at: nat, a: Annotation, k: nat)
    requires a.text != [] && k <= |t|
    ensures OnlyHits(SplitFrom(t, at, a, k), a)
    decreases |t| - k
  {
    var i := IndexOf(t, a.text, k);
    IndexOfFirst(t, a.text, k);
    if i < 0 {
      if k < |t| {
        SliceAbsent(t, k, |t|, a.text);
        assert t[k..|t|] == t[k..];
        OneHit([Plain(at + k, t[k..])], a);
      }
    } else {
      SplitFromHits(t, at, a, i + |a.text|);
      SplitFromUnfold(t, at, a, k, i);
      CutHits(t, at, k, i, a);
      HitsConcat(SplitFrom(t, at, a, k), Cut(t, at, k, i, a), SplitFrom(t, at, a, i + |a.text|), a);
    }
  }

  /** A slice of `t` between positions where nothing starts holds no occurrence. */
  lemma SliceAbsent(t: string, lo: nat, hi: nat, pat: string)
    requires pat != [] && lo <= hi <= |t|
    requires forall j :: lo <= j < hi ==> !OccursAt(t, pat, j)
    ensures Absent(t[lo..hi], pat)
  {
    var s := t[lo..hi];
    forall m | 0 <= m <= |s| ensures !OccursAt(s, pat, m) {
      if m + |pat| <= |s| {
        SliceOfSlice(t, s, lo, m, m + |pat|);
        assert !OccursAt(t, pat, lo + m);
      }
    }
  }

  lemma OneHit(parts: seq<Segment>, a: Annotation)
    requires |parts| == 1
    requires parts[0].Plain? ==> Absent(parts[0].text, a.text)
    requires parts[0].Hi? ==> parts[0].text == a.text && parts[0].tag == a.tag
    ensures OnlyHits(parts, a)
  {
  }

  /** The gap before the first occurrence holds none. */
  lemma CutHits(t: string, at: nat, k: nat, i: int, a: Annotation)
    requires a.text != [] && k <= |t| && i == IndexOf(t, a.text, k) && i >= 0
    requires forall j :: k <= j < i ==> !OccursAt(t, a.text, j)
    ensures OnlyHits(Cut(t, at, k, i, a), a)
  {
    var hit := [Hi(at + i, a.text, a.tag)];
    if i > k {
      SliceAbsent(t, k, i, a.text);
      var gap := [Plain(at + k, t[k..i])];
      OneHit(gap, a);
      OneHit(hit, a);
      HitsConcat(Cut(t, at, k, i, a), gap, hit, a);
    } else {
      assert Cut(t, at, k, i, a) == hit;
    }
  }

  lemma HitsConcat(all: seq<Segment>, x: seq<Segment>, y: seq<Segment>, a: Annotation)
    requires all == x + y && OnlyHits(x, a) && OnlyHits(y, a)
    ensures OnlyHits(all, a)
  {
    forall m | 0 <= m < |all| ensures all[m] == if m < |x| then x[m] else y[m - |x|] {
    }
  }

  /** No plain piece of `parts` holds an occurrence of `pat`. */
  predicate PlainFree(parts: seq<Segment>, pat: string) {
    forall m :: 0 <= m < |parts| && parts[m].Plain? ==> Absent(parts[m].text, pat)
  }

  /** Every highlight of `parts` carries the text and label of one of `done`. */
  predicate HiFrom(parts: seq<Segment>, done: seq<Annotation>) {
    forall m :: 0 <= m < |parts| && parts[m].Hi? ==>
      exists a :: a in done && a.text == parts[m].text && a.tag == parts[m].tag
  }

  /** The pieces after the annotations `done` have been applied: each
      highlight is one of them, and no plain piece holds an occurrence of
      any of them. */
  predicate Marked(parts: seq<Segment>, done: seq<Annotation>) {
    HiFrom(parts, done) && forall a :: a in done && a.text != [] ==> PlainFree(parts, a.text)
  }

  /** Splitting keeps out of the plain pieces whatever the split text lacked. */
  lemma {:induction false} SplitFromFree(t: string, at: nat, a: Annotation, k: nat, pat: string)
    requires a.text != [] && k <= |t| && pat != [] && Absent(t, pat)
    ensures PlainFree(SplitFrom(t, at, a, k), pat)
    decreases |t| - k
  {
    var i := IndexOf(t, a.text, k);
    if i < 0 {
      if k < |t| {
        SliceAbsent(t, k, |t|, pat);
        assert t[k..|t|] == t[k..];
        assert SplitFrom(t, at, a, k) == [Plain(at + k, t[k..])];
      }
    } else {
      SplitFromFree(t, at, a, i + |a.text|, pat);
      SplitFromUnfold(t, at, a, k, i);
      CutFree(t, at, k, i, a, pat);
      FreeConcat(SplitFrom(t, at, a, k), Cut(t, at, k, i, a), SplitFrom(t, at, a, i + |a.text|), pat);
    }
  }

  lemma CutFree(t: string, at: nat, k: nat, i: nat, a: Annotation, pat: string)
    requires k <= i <= |t| && pat != [] && Absent(t, pat)
    ensures PlainFree(Cut(t, at, k, i, a), pat)
  {
    if i > k {
      SliceAbsent(t, k, i, pat);
    }
  }

  lemma FreeConcat(all: seq<Segment>, x: seq<Segment>, y: seq<Segment>, pat: string)
    requires all == x + y && PlainFree(x, pat) && PlainFree(y, pat)
    ensures PlainFree(all, pat)
  {
    forall m | 0 <= m < |all| ensures all[m] == if m < |x| then x[m] else y[m - |x|] {
    }
  }

  lemma HiFromConcat(all: seq<Segment>, x: seq<Segment>, y: seq<Segment>, done: seq<Annotation>)
    requires all == x + y && HiFrom(x, done) && HiFrom(y, done)
    ensures HiFrom(all, done)
  {
    forall m | 0 <= m < |all| ensures all[m] == if m < |x| then x[m] else y[m - |x|] {
    }
  }

  lemma MarkedConcat(all: seq<Segment>, x: seq<Segment>, y: seq<Segment>, done: seq<Annotation>)
    requires all == x + y && Marked(x, done) && Marked(y, done)
    ensures Marked(all, done)
  {
    HiFromConcat(all, x, y, done);
    forall a | a in done && a.text != [] ensures PlainFree(all, a.text) {
      FreeConcat(all, x, y, a.text);
    }
  }

  /** Splitting a plain piece free of the annotations `done` by `a` gives
      pieces marked by `done` and `a`. */
  lemma SplitMarked(t: string, at: nat, a: Annotation, done: seq<Annotation>)
    requires a.text != []
    requires forall b :: b in done && b.text != [] ==> Absent(t, b.text)
    ensures Marked(SplitPlain(t, at, a), done + [a])
  {
    var parts := SplitPlain(t, at, a);
    SplitPlainHits(t, at, a);
    forall m | 0 <= m < |parts| && parts[m].Hi?
      ensures exists b :: b in done + [a] && b.text == parts[m].text && b.tag == parts[m].tag
    {
      assert a in done + [a];
    }
    forall b | b in done + [a] && b.text != [] ensures PlainFree(parts, b.text) {
      if b != a {
        assert b in done;
        SplitFromFree(t, at, a, 0, b.text);
      }
    }
  }

  /** A highlighted piece stays marked when more annotations are done. */
  lemma HiMarked(p: Segment, done: seq<Annotation>, a: Annotation)
    requires p.Hi? && exists b :: b in done && b.text == p.text && b.tag == p.tag
    ensures Marked([p], done + [a])
  {
    var b :| b in done && b.text == p.text && b.tag == p.tag;
    assert b in done + [a];
  }

  /** Applying `a` to pieces marked by `done` gives pieces marked by `done`
      and `a`. */
  lemma {:induction false} RefineMarked(parts: seq<Segment>, a: Annotation, done: seq<Annotation>)
    requires a.text != [] && Marked(parts, done)
    ensures Marked(Refine(parts, a), done + [a])
    decreases |parts|
  {
    if parts != [] {
      var head := match parts[0]
        case Plain(at, t) => SplitPlain(t, at, a)
        case Hi(_, _, _) => [parts[0]];
      assert Marked(parts[1..], done) by {
        forall m | 0 <= m < |parts[1..]| ensures parts[1..][m] == parts[m + 1] {
        }
      }
      RefineMarked(parts[1..], a, done);
      assert Marked(head, done + [a]) by {
        if parts[0].Hi? {
          HiMarked(parts[0], done, a);
        } else {
          assert forall b :: b in done && b.text != [] ==> PlainFree(parts, b.text);
          SplitMarked(parts[0].text, parts[0].at, a, done);
        }
      }
      MarkedConcat(Refine(parts, a), head, Refine(parts[1..], a), done + [a]);
    }
  }

  /** Applying the annotations `anns` in turn to pieces marked by `done`
      gives pieces marked by all of them. */
  lemma {:induction false} MarkAllMarked(parts: seq<Segment>, anns: seq<Annotation>, done: seq<Annotation>)
    requires Marked(parts, done)
    ensures Marked(MarkAll(parts, anns), done + anns)
    decreases |anns|
  {
    if anns == [] {
      assert done + anns == done;
    } else {
      assert done + anns == (done + [anns[0]]) + anns[1..];
      if anns[0].text == [] {
        assert Marked(parts, done + [anns[0]]) by {
          forall m | 0 <= m < |parts| && parts[m].Hi?
            ensures exists b :: b in done + [anns[0]] && b.text == parts[m].text && b.tag == parts[m].tag
          {
            var b :| b in done && b.text == parts[m].text && b.tag == parts[m].tag;
            assert b in done + [anns[0]];
          }
        }
        MarkAllMarked(parts, anns[1..], done + [anns[0]]);
      } else {
        RefineMarked(parts, anns[0], done);
        MarkAllMarked(Refine(parts, anns[0]), anns[1..], done + [anns[0]]);
      }
    }
  }

  /**
   What the corrected colouring highlights: every highlighted piece carries
   the text and label of an annotation of the current record, and no plain
   piece holds an occurrence of any non-empty annotation of the current
   record, so every occurrence in the record text overlaps some highlight.
   */
  lemma ColorizeMarks(json: string, store: seq<Annotation>, cursor: int)
    ensures var parts := ColorizePieces(json, store, cursor);
            forall k :: 0 <= k < |parts| && parts[k].Hi? ==>
              exists a :: a in store && a.index == cursor && a.text == parts[k].text && a.tag == parts[k].tag
    ensures var parts := ColorizePieces(json, store, cursor);
            forall k, a :: 0 <= k < |parts| && parts[k].Plain? && a in store && a.index == cursor && a.text != [] ==>
              Absent(parts[k].text, a.text)
  {
    PiecesMarked(json, store, cursor);
    RecordMembers(store, cursor);
    MarkedMeaning(ColorizePieces(json, store, cursor), SortByLength(ForRecord(store, cursor)), store, cursor);
  }

  /** The corrected pieces are marked by the sorted annotations of the record. */
  lemma PiecesMarked(json: string, store: seq<Annotation>, cursor: int)
    ensures Marked(ColorizePieces(json, store, cursor), SortByLength(ForRecord(store, cursor)))
  {
    var anns := SortByLength(ForRecord(store, cursor));
    MarkAllMarked(Initial(json), anns, []);
    assert [] + anns == anns;
  }

  /** The sorted annotations of the record are the store's annotations with
      the record's index. */
  lemma RecordMembers(store: seq<Annotation>, cursor: int)
    ensures forall a :: a in SortByLength(ForRecord(store, cursor)) <==> a in store && a.index == cursor
  {
    var anns := ForRecord(store, cursor);
    forall a ensures a in SortByLength(anns) <==> a in anns {
      assert a in SortByLength(anns) <==> a in multiset(SortByLength(anns));
    }
  }

  lemma MarkedMeaning(parts: seq<Segment>, anns: seq<Annotation>, store: seq<Annotation>, cursor: int)
    requires Marked(parts, anns)
    requires forall a :: a in anns <==> a in store && a.index == cursor
    ensures forall k :: 0 <= k < |parts| && parts[k].Hi? ==>
              exists a :: a in store && a.index == cursor && a.text == parts[k].text && a.tag == parts[k].tag
    ensures forall k, a :: 0 <= k < |parts| && parts[k].Plain? && a in store && a.index == cursor && a.text != [] ==>
              Absent(parts[k].text, a.text)
  {
    forall k | 0 <= k < |parts| && parts[k].Hi?
      ensures exists a :: a in store && a.index == cursor && a.text == parts[k].text && a.tag == parts[k].tag
    {
      var a :| a in anns && a.text == parts[k].text && a.tag == parts[k].tag;
    }
    forall k, a | 0 <= k < |parts| && parts[k].Plain? && a in store && a.index == cursor && a.text != []
      ensures Absent(parts[k].text, a.text)
    {
      assert PlainFree(parts, a.text);
    }
  }

  /** Splitting a plain piece yields the markup the global replace produces for it. */
  lemma SplitPlainHtml(t: string, at: nat, a: Annotation)
    requires a.text != []
    ensures Html(SplitPlain(t, at, a)) == ReplaceAll(t, a.text, OpenTag(a.tag), CloseTag)
  {
    SplitFromMarkup(t, at, a, 0, OpenTag, CloseTag);
    assert t[0..] == t;
  }

  lemma {:induction false} SplitFromMarkup(t: string, at: nat, a: Annotation, k: nat,
                                           open: Label -> string, close: string)
    requires a.text != [] && k <= |t|
    ensures Markup(SplitFrom(t, at, a, k), open, close) == ReplaceFrom(t, a.text, open(a.tag), close, k)
    decreases |t| - k
  {
    var i := IndexOf(t, a.text, k);
    if i >= 0 {
      SplitFromMarkup(t, at, a, i + |a.text|, open, close);
      SplitFromUnfold(t, at, a, k, i);
      ReplaceFromUnfold(t, a.text, open(a.tag), close, k, i);
      CutMarkup(t, at, k, i, a, open, close);
      MarkupStep(SplitFrom(t, at, a, k), Cut(t, at, k, i, a), SplitFrom(t, at, a, i + |a.text|),
                 ReplaceFrom(t, a.text, open(a.tag), close, k), t[k..i] + open(a.tag) + a.text + close,
                 ReplaceFrom(t, a.text, open(a.tag), close, i + |a.text|), open, close);
    } else {
      MarkupTail(t, at, a, k, open, close);
    }
  }

  /** Markup distributes over a split of the pieces. */
  lemma MarkupStep(all: seq<Segment>, cut: seq<Segment>, rest: seq<Segment>, text: string, x: string, y: string,
                   open: Label -> string, close: string)
    requires all == cut + rest && text == x + y
    requires Markup(cut, open, close) == x && Markup(rest, open, close) == y
    ensures Markup(all, open, close) == text
  {
    MarkupConcat(cut, rest, open, close);
  }

  lemma SplitFromUnfold(t: string, at: nat, a: Annotation, k: nat, i: int)
    requires a.text != [] && k <= |t| && i == IndexOf(t, a.text, k) && i >= 0
    ensures SplitFrom(t, at, a, k) == Cut(t, at, k, i, a) + SplitFrom(t, at, a, i + |a.text|)
  {
  }

  /** No occurrence is left: both give the remaining text. */
  lemma MarkupTail(t: string, at: nat, a: Annotation, k: nat, open: Label -> string, close: string)
    requires a.text != [] && k <= |t| && IndexOf(t, a.text, k) < 0
    ensures Markup(SplitFrom(t, at, a, k), open, close) == ReplaceFrom(t, a.text, open(a.tag), close, k)
  {
    if k < |t| {
      assert [Plain(at + k, t[k..])][1..] == [];
    }
  }

  lemma CutMarkup(s: string, at: nat, from: nat, index: nat, a: Annotation, open: Label -> string, close: string)
    requires from <= index <= |s|
    ensures Markup(Cut(s, at, from, index, a), open, close) == s[from..index] + open(a.tag) + a.text + close
  {
    var hit := [Hi(at + index, a.text, a.tag)];
    assert Markup(hit, open, close) == open(a.tag) + a.text + close by { assert hit[1..] == []; }
    if index > from {
      var gap := [Plain(at + from, s[from..index])];
      assert Markup(gap, open, close) == s[from..index] by { assert gap[1..] == []; }
      MarkupConcat(gap, hit, open, close);
      assert Cut(s, at, from, index, a) == gap + hit;
    } else {
      assert Cut(s, at, from, index, a) == hit by { assert [] + hit == hit; }
    }
  }

  lemma {:induction false} MarkupConcat(a: seq<Segment>, b: seq<Segment>, open: Label -> string, close: string)
    ensures Markup(a + b, open, close) == Markup(a, open, close) + Markup(b, open, close)
    decreases |a|
  {
    if a == [] {
      assert a + b == b;
    } else {
      assert (a + b)[0] == a[0];
      assert (a + b)[1..] == a[1..] + b;
      MarkupConcat(a[1..], b, open, close);
    }
  }

  /** With a single annotation for the record the two colourings agree: the
      defect needs a second replace running over the first one's markup. */
  lemma SingleAnnotationAgrees(json: string, store: seq<Annotation>, cursor: int)
    requires |ForRecord(store, cursor)| == 1 && ForRecord(store, cursor)[0].text != []
    ensures Colorize(json, store, cursor) == ColorizeAsWritten(json, store, cursor)
  {
    var anns := ForRecord(store, cursor);
    var a := anns[0];
    assert SortByLength(anns) == [a] by {
      assert anns == [a];
      assert SortByLength(anns) == Insert(a, []);
    }
    assert [a][1..] == [];
    var refined := Refine(Initial(json), a);
    assert MarkAll(Initial(json), [a]) == refined;
    assert WrapAll(json, [a]) == ReplaceAll(json, a.text, OpenTag(a.tag), CloseTag);
    if json == [] {
      assert IndexOf(json, a.text, 0) == -1;
      assert refined == [];
    } else {
      RefinePlain(json, 0, a);
      SplitPlainHtml(json, 0, a);
    }
  }

  lemma RefinePlain(t: string, at: nat, a: Annotation)
    requires a.text != []
    ensures Refine([Plain(at, t)], a) == SplitPlain(t, at, a)
  {
    var p := [Plain(at, t)];
    assert p[0] == Plain(at, t) && p[1..] == [];
    assert Refine(p, a) == SplitPlain(t, at, a) + Refine([], a);
    assert SplitPlain(t, at, a) + [] == SplitPlain(t, at, a);
  }

  /**
   As written, the second replace runs over the first one's markup. Take two
   annotations of the current record, `a` longer than "span" and `b` whose
   text is "span", and a record text `p + a.text + rest` in which `p` holds
   no "span" and no occurrence of `a.text` starts inside `p`. The first
   replace puts an opening tag right after `p`; the second one matches the
   "span" of that tag, so the output continues after `p` with "<" followed
   by a whole new opening tag, which wraps no record text.
   */
  lemma MarkupRewrapped(json: string, a: Annotation, b: Annotation, p: string, rest: string, cursor: int)
    requires |a.text| > 4 && b.text == "span"
    requires a.index == cursor && b.index == cursor
    requires json == p + a.text + rest
    requires forall j :: 0 <= j < |p| ==> !OccursAt(json, a.text, j)
    requires Absent(p, "span")
    ensures var html := ColorizeAsWritten(json, [b, a], cursor);
            |p + "<" + OpenTag(b.tag)| < |html| && StartsWith(html, p + "<" + OpenTag(b.tag))
  {
    var ob := OpenTag(b.tag);
    AsWrittenPair(json, a, b, cursor);
    TagStart(a.tag);
    TwoReplaces(json, a.text, OpenTag(a.tag), ob, CloseTag, p, rest, ColorizeAsWritten(json, [b, a], cursor));
  }

  /** On that store, the as-written colouring is the replace of `a.text`
      followed by the replace of "span". */
  lemma AsWrittenPair(json: string, a: Annotation, b: Annotation, cursor: int)
    requires |a.text| > 4 && b.text == "span"
    requires a.index == cursor && b.index == cursor
    ensures ColorizeAsWritten(json, [b, a], cursor)
         == ReplaceAll(ReplaceAll(json, a.text, OpenTag(a.tag), CloseTag), "span", OpenTag(b.tag), CloseTag)
  {
    PairOrder(a, b, cursor);
    WrapPair(json, a, b);
  }

  /** The two replaces of that input, over plain strings: `oa` is the first
      opening tag, `ob` the second. */
  lemma TwoReplaces(json: string, ta: string, oa: string, ob: string, close: string, p: string, rest: string, html: string)
    requires ta != [] && json == p + ta + rest
    requires forall j :: 0 <= j < |p| ==> !OccursAt(json, ta, j)
    requires Absent(p, "span")
    requires |oa| > 5 && oa[..5] == "<span"
    requires html == ReplaceAll(ReplaceAll(json, ta, oa, close), "span", ob, close)
    ensures |p + "<" + ob| < |html| && StartsWith(html, p + "<" + ob)
  {
    var q := oa + ta + close + ReplaceFrom(json, ta, oa, close, |p| + |ta|);
    FirstReplace(json, ta, oa, close, p, rest);
    SecondReplace(p, q, ob, close);
  }

  /** The first replace keeps `p` and then starts with the tag `oa`. */
  lemma FirstReplace(json: string, ta: string, oa: string, close: string, p: string, rest: string)
    requires ta != [] && json == p + ta + rest
    requires forall j :: 0 <= j < |p| ==> !OccursAt(json, ta, j)
    requires |oa| > 5 && oa[..5] == "<span"
    ensures var q := oa + ta + close + ReplaceFrom(json, ta, oa, close, |p| + |ta|);
            && ReplaceAll(json, ta, oa, close) == p + q
            && |q| > 4 && q[0] == '<' && q[1..1 + 4] == "span"
  {
    var x := ReplaceFrom(json, ta, oa, close, |p| + |ta|);
    var q := oa + ta + close + x;
    ReplaceAfter(json, ta, oa, close, p, rest);
    Regroup(p, oa, ta, close, x);
    PrefixOfConcat(oa, ta + close + x, 5);
    SpanAfterBracket(q);
  }

  lemma SpanAfterBracket(w: string)
    requires |w| > 4 && w[..5] == "<span"
    ensures w[0] == '<' && w[1..1 + 4] == "span"
  {
    assert w[0] == w[..5][0];
    assert w[1..1 + 4] == w[..5][1..5];
  }

  /** The second replace, of "span", then matches inside that tag. */
  lemma SecondReplace(p: string, q: string, ob: string, close: string)
    requires Absent(p, "span")
    requires |q| > 4 && q[0] == '<' && q[1..1 + 4] == "span"
    ensures var html := ReplaceAll(p + q, "span", ob, close);
            |html| > |p| + 1 + |ob| && html[..|p| + 1 + |ob|] == p + "<" + ob
  {
    assert '<' !in "span";
    FirstAfterBreak(p, q, "span", '<');
    ReplaceFirstAt(p + q, "span", ob, close, |p| + 1, p + "<");
    PrefixOfChain(p, "<", ob, "span", close, ReplaceFrom(p + q, "span", ob, close, |p| + 1 + 4));
  }

  // Regroupings and prefixes of concatenations, one step each of the proofs
  // above. They are lemmas so that the solver meets each step as a single
  // fact; as inline assertions they make those proofs' cost vary widely with
  // the seed.

  lemma PrefixOfChain(u: string, v: string, w: string, d: string, e: string, f: string)
    requires d != []
    ensures var s := u + v + w + d + e + f;
            |s| > |u + v + w| && s[..|u + v + w|] == u + v + w
  {
    var s := u + v + w + d + e + f;
    assert s == (u + v + w) + (d + e + f);
  }

  lemma PrefixOfConcat(x: string, y: string, n: nat)
    requires n <= |x|
    ensures (x + y)[..n] == x[..n]
  {
  }

  lemma Regroup(p: string, x: string, y: string, z: string, w: string)
    ensures p + x + y + z + w == p + (x + y + z + w)
  {
  }

  lemma WrapPair(s: string, a: Annotation, b: Annotation)
    ensures WrapAll(s, [a, b])
         == ReplaceAll(ReplaceAll(s, a.text, OpenTag(a.tag), CloseTag), b.text, OpenTag(b.tag), CloseTag)
  {
    assert [a, b][1..] == [b];
    assert [b][1..] == [];
  }

  lemma MiddleOccurs(p: string, x: string, rest: string)
    ensures OccursAt(p + x + rest, x, |p|)
    ensures (p + x + rest)[..|p|] == p
  {
    assert (p + x + rest)[|p|..|p| + |x|] == x;
  }

  /** Refining a concatenation refines each part. */
  lemma {:induction false} RefineConcat(x: seq<Segment>, y: seq<Segment>, a: Annotation)
    requires a.text != []
    ensures Refine(x + y, a) == Refine(x, a) + Refine(y, a)
    decreases |x|
  {
    if x == [] {
      assert x + y == y;
    } else {
      assert (x + y)[0] == x[0] && (x + y)[1..] == x[1..] + y;
      RefineConcat(x[1..], y, a);
    }
  }

  /** A cut whose gap holds no occurrence of `b.text` is left as it is by `b`. */
  lemma RefineKeepsCut(s: string, from: nat, index: nat, a: Annotation, b: Annotation)
    requires from <= index <= |s| && b.text != []
    requires Absent(s[from..index], b.text)
    ensures Refine(Cut(s, 0, from, index, a), b) == Cut(s, 0, from, index, a)
  {
    var hit := [Hi(index, a.text, a.tag)];
    assert Refine(hit, b) == hit by {
      assert hit[0].Hi? && hit[1..] == [];
      assert Refine(hit, b) == [hit[0]] + Refine([], b);
    }
    if index > from {
      var g := s[from..index];
      var gap := [Plain(from, g)];
      IndexOfFirst(g, b.text, 0);
      assert SplitPlain(g, from, b) == gap by {
        assert g[0..] == g;
      }
      RefinePlain(g, from, b);
      RefineConcat(gap, hit, b);
      assert Cut(s, 0, from, index, a) == gap + hit;
    } else {
      assert Cut(s, 0, from, index, a) == hit by { assert [] + hit == hit; }
    }
  }

  /** Two annotations of the same record, the first one longer than "span",
      are applied longer first. */
  lemma PairOrder(a: Annotation, b: Annotation, cursor: int)
    requires |a.text| > 4 && b.text == "span"
    requires a.index == cursor && b.index == cursor
    ensures SortByLength(ForRecord([b, a], cursor)) == [a, b]
  {
    assert [b, a][1..] == [a];
    assert [a][1..] == [];
    assert ForRecord([b, a], cursor) == [b, a];
    assert SortByLength([a]) == [a];
  }

  /** Every opening tag starts with "<span". */
  lemma TagStart(l: Label)
    ensures |OpenTag(l)| > 5 && OpenTag(l)[..5] == "<span"
  {
    var o := OpenTag(l);
    assert o[0] == '<' && o[1] == 's' && o[2] == 'p' && o[3] == 'a' && o[4] == 'n';
  }

  /** The corrected colouring of the same input continues after `p` with the
      longer annotation's tag and text: its occurrence is wrapped once, and
      the shorter annotation is applied to the record text only. */
  lemma CorrectedWrapsOnce(json: string, a: Annotation, b: Annotation, p: string, rest: string, cursor: int)
    requires |a.text| > 4 && b.text == "span"
    requires a.index == cursor && b.index == cursor
    requires json == p + a.text + rest
    requires forall j :: 0 <= j < |p| ==> !OccursAt(json, a.text, j)
    requires Absent(p, "span")
    ensures var html := Colorize(json, [b, a], cursor);
            var w := p + OpenTag(a.tag) + a.text;
            |html| >= |w| && html[..|w|] == w
  {
    var r := Refine(SplitFrom(json, 0, a, |p| + |a.text|), b);
    CorrectedPieces(json, a, b, p, rest, cursor);
    CutThenHtml(json, a, p, rest, r);
    var w := p + OpenTag(a.tag) + a.text;
    assert (w + (CloseTag + Html(r)))[..|w|] == w;
  }

  /** The markup of a cut at the first occurrence, followed by any pieces. */
  lemma CutThenHtml(json: string, a: Annotation, p: string, rest: string, r: seq<Segment>)
    requires json == p + a.text + rest
    ensures Html(Cut(json, 0, 0, |p|, a) + r) == p + OpenTag(a.tag) + a.text + (CloseTag + Html(r))
  {
    assert json[0..|p|] == p;
    MarkupConcat(Cut(json, 0, 0, |p|, a), r, OpenTag, CloseTag);
    CutMarkup(json, 0, 0, |p|, a, OpenTag, CloseTag);
  }

  /** The pieces of the corrected colouring on that input. */
  lemma CorrectedPieces(json: string, a: Annotation, b: Annotation, p: string, rest: string, cursor: int)
    requires |a.text| > 4 && b.text == "span"
    requires a.index == cursor && b.index == cursor
    requires json == p + a.text + rest
    requires forall j :: 0 <= j < |p| ==> !OccursAt(json, a.text, j)
    requires Absent(p, "span")
    ensures ColorizePieces(json, [b, a], cursor)
         == Cut(json, 0, 0, |p|, a) + Refine(SplitFrom(json, 0, a, |p| + |a.text|), b)
  {
    var cut := Cut(json, 0, 0, |p|, a);
    var tail := SplitFrom(json, 0, a, |p| + |a.text|);
    assert Refine(SplitPlain(json, 0, a), b) == cut + Refine(tail, b) by {
      SplitFirst(json, a, p, rest);
      assert json[0..|p|] == p;
      RefineKeepsCut(json, 0, |p|, a, b);
      RefineConcat(cut, tail, b);
    }
    PairOrder(a, b, cursor);
    MarkPair(json, a, b);
  }

  /** Two annotations applied to the whole record text: the second refines
      the cut made by the first. */
  lemma MarkPair(json: string, a: Annotation, b: Annotation)
    requires json != [] && a.text != [] && b.text != []
    ensures MarkAll(Initial(json), [a, b]) == Refine(SplitPlain(json, 0, a), b)
  {
    var x := Initial(json);
    assert x == [Plain(0, json)];
    assert [a, b][0] == a && [a, b][1..] == [b];
    assert MarkAll(x, [a, b]) == MarkAll(Refine(x, a), [b]);
    assert [b][0] == b && [b][1..] == [];
    assert MarkAll(Refine(x, a), [b]) == MarkAll(Refine(Refine(x, a), b), []);
    RefinePlain(json, 0, a);
  }

  /** The cut of the record text begins with the first occurrence after `p`. */
  lemma SplitFirst(json: string, a: Annotation, p: string, rest: string)
    requires a.text != [] && json == p + a.text + rest
    requires forall j :: 0 <= j < |p| ==> !OccursAt(json, a.text, j)
    ensures SplitPlain(json, 0, a) == Cut(json, 0, 0, |p|, a) + SplitFrom(json, 0, a, |p| + |a.text|)
  {
    MiddleOccurs(p, a.text, rest);
    IndexOfAt(json, a.text, 0, |p|);
  }

  /** So the two colourings differ on that input. */
  lemma AsWrittenDiffers(json: string, a: Annotation, b: Annotation, p: string, rest: string, cursor: int)
    requires |a.text| > 4 && b.text == "span"
    requires a.index == cursor && b.index == cursor
    requires json == p + a.text + rest
    requires forall j :: 0 <= j < |p| ==> !OccursAt(json, a.text, j)
    requires Absent(p, "span")
    ensures ColorizeAsWritten(json, [b, a], cursor) != Colorize(json, [b, a], cursor)
  {
    MarkupRewrapped(json, a, b, p, rest, cursor);
    CorrectedWrapsOnce(json, a, b, p, rest, cursor);
    var u, v := p + "<" + OpenTag(b.tag), p + OpenTag(a.tag) + a.text;
    var k := |p| + 1;
    TagsDiffer(p, a.tag, b.tag, a.text);
    PrefixesDiffer(ColorizeAsWritten(json, [b, a], cursor), Colorize(json, [b, a], cursor), u, v, k);
  }

  /** Right after `p`, the re-wrapped markup has the '<' of a tag where the
      intended markup has the 's' of "<span". */
  lemma TagsDiffer(p: string, la: Label, lb: Label, t: string)
    ensures |p| + 1 < |p + "<" + OpenTag(lb)| && (p + "<" + OpenTag(lb))[|p| + 1] == '<'
    ensures |p| + 1 < |p + OpenTag(la) + t| && (p + OpenTag(la) + t)[|p| + 1] == 's'
  {
    TagStart(la);
    TagStart(lb);
    var u, v := p + "<" + OpenTag(lb), p + OpenTag(la) + t;
    assert u[|p| + 1] == OpenTag(lb)[0];
    assert v[|p| + 1] == OpenTag(la)[1];
  }

  /** Strings that start with prefixes differing at some position differ. */
  lemma PrefixesDiffer(x: string, y: string, u: string, v: string, k: nat)
    requires |u| <= |x| && x[..|u|] == u && |v| <= |y| && y[..|v|] == v
    requires k < |u| && k < |v| && u[k] != v[k]
    ensures x != y
  {
    assert x[k] == u[k] && y[k] == v[k];
  }
}

=== FILE: labels.dfy ===
/** The fixed label registry of the file-content page. */
module Labels {
  import opened Wrappers

  /** A label: the key annotations refer to, a display name, and the colours
      the page paints a highlight with. */
  datatype Label = Label(key: string, name: string, color: string, bgColor: string, textColor: string)

  const Person := Label("person", "Person", "#ef4444", "#fef2f2", "#991b1b")
  const Organization := Label("organization", "Organization", "#22c55e", "#f0fdf4", "#166534")
  const Location := Label("location", "Location", "#3b82f6", "#eff6ff", "#1e40af")

  /** The three labels, in the order the label picker lists them. */
  const Registry: seq<Label> := [Person, Organization, Location]

  /** Position of the first label of `labels` whose key is `key`, or -1. */
  function FirstWithKey(labels: seq<Label>, key: string): (r: int)
    ensures -1 <= r < |labels|
    ensures r == -1 <==> forall i :: 0 <= i < |labels| ==> labels[i].key != key
    ensures r >= 0 ==> labels[r].key == key && forall i :: 0 <= i < r ==> labels[i].key != key
  {
    if labels == [] then -1
    else if labels[0].key == key then 0
    else
      var r := FirstWithKey(labels[1..], key);
      if r < 0 then -1 else r + 1
  }

  /** `labels.find((label) => label.key === key)`. */
  function Lookup(key: string): (r: Option<Label>)
    ensures r.Some? <==> key == "person" || key == "organization" || key == "location"
    ensures r.Some? ==> r.value in Registry && r.value.key == key
  {
    var i := FirstWithKey(Registry, key);
    assert Registry[0].key == "person" && Registry[1].key == "organization" && Registry[2].key == "location";
    if i < 0 then None else Some(Registry[i])
  }

  /** Keys identify labels: no two registry entries share one. */
  lemma KeysUnique()
    ensures forall i, j :: 0 <= i < |Registry| && 0 <= j < |Registry| && i != j ==> Registry[i].key != Registry[j].key
  {
  }
}

=== FILE: navigation.dfy ===
/**
 The record navigation of the file-content page in non-text mode: the
 Previous and Next buttons move `currentIndex` over the records of the
 document, clamped at both ends, and are disabled at the end they would
 not move past.
 */
module Navigation {

  /** `currentIndex` addresses one of `count` records. */
  predicate InRange(i: int, count: int) {
    0 <= i < count
  }

  /** The Previous button: `Math.max(0, currentIndex - 1)`. */
  function Previous(i: int): (r: int)
    ensures 0 <= i ==> 0 <= r <= i
    ensures i > 0 ==> r == i - 1
    ensures 0 <= i ==> (r == i <==> i == 0)
    ensures i < 0 ==> r == 0
  {
    if i - 1 < 0 then 0 else i - 1
  }

  /** The Next button: `Math.min(fileContent.length - 1, currentIndex + 1)`. */
  function Next(i: int, count: int): (r: int)
    ensures i < count ==> i <= r < count
    ensures i + 1 < count ==> r == i + 1
    ensures i < count ==> (r == i <==> i == count - 1)
    ensures count <= i ==> r == count - 1
  {
    if count - 1 < i + 1 then count - 1 else i + 1
  }

  /** Previous is disabled on the first record. */
  predicate PreviousDisabled(i: int) {
    i == 0
  }

  /** Next is disabled on the last record. */
  predicate NextDisabled(i: int, count: int) {
    i == count - 1
  }

  /** Within range, a button is disabled exactly when pressing it would leave
      the index where it is, and pressing either keeps the index in range. */
  lemma ButtonsAgree(i: int, count: int)
    requires InRange(i, count)
    ensures PreviousDisabled(i) <==> Previous(i) == i
    ensures NextDisabled(i, count) <==> Next(i, count) == i
    ensures InRange(Previous(i), count) && InRange(Next(i, count), count)
  {
  }

  /** One press of a navigation button. */
  datatype Press = Back | Forward

  /** The index after one press. */
  function Move(i: int, count: int, p: Press): int {
    match p
    case Back => Previous(i)
    case Forward => Next(i, count)
  }

  /** The index after a sequence of presses, starting from `i`. */
  function Walk(i: int, count: int, presses: seq<Press>): (r: int)
    ensures InRange(i, count) ==> InRange(r, count)
    ensures InRange(i, count) ==> -|presses| <= r - i <= |presses|
    decreases |presses|
  {
    if presses == [] then i
    else Walk(Move(i, count, presses[0]), count, presses[1..])
  }

  /** `n` presses of Next. */
  function Forwards(n: nat): (ps: seq<Press>)
    ensures |ps| == n
    ensures forall k :: 0 <= k < n ==> ps[k] == Forward
  {
    if n == 0 then [] else [Forward] + Forwards(n - 1)
  }

  /** Pressing Next `n` times from record `i` moves `n` records on, but
      never past the last one. */
  lemma {:induction false} ForwardsReachEnd(i: int, count: int, n: nat)
    requires InRange(i, count)
    ensures Walk(i, count, Forwards(n)) == if i + n < count then i + n else count - 1
    decreases n
  {
    if n > 0 {
      var ps := Forwards(n);
      assert ps[1..] == Forwards(n - 1);
      ForwardsReachEnd(Next(i, count), count, n - 1);
    }
  }

  /** Walking splits at any point of the press sequence. */
  lemma {:induction false} WalkConcat(i: int, count: int, xs: seq<Press>, ys: seq<Press>)
    ensures Walk(i, count, xs + ys) == Walk(Walk(i, count, xs), count, ys)
    decreases |xs|
  {
    if xs == [] {
      assert xs + ys == ys;
    } else {
      assert (xs + ys)[0] == xs[0];
      assert (xs + ys)[1..] == xs[1..] + ys;
      WalkConcat(Move(i, count, xs[0]), count, xs[1..], ys);
    }
  }

  /** A Back press undoes a Forward press that was not blocked, and the other
      way round. */
  lemma StepsUndo(i: int, count: int)
    requires InRange(i, count)
    ensures !NextDisabled(i, count) ==> Previous(Next(i, count)) == i
    ensures !PreviousDisabled(i) ==> Next(Previous(i), count) == i
  {
  }

  /** A record document with no records. The buttons are shown only for the
      "json" file type, and the page's defaults pair the empty record list
      with "text", so this needs a caller that passes "json" with an empty
      list. The page starts at index 0, which is out of range, and Next moves
      it to -1; there Previous is enabled again and brings it back to 0. */
  lemma EmptyDocument()
    ensures !InRange(0, 0)
    ensures Next(0, 0) == -1 && Previous(0) == 0
    ensures !PreviousDisabled(-1) && Previous(-1) == 0
  {
  }
}

=== FILE: ordering.dfy ===
/**
 `annotations.sort((a, b) => b.text.length - a.text.length)`: longest text
 first, and, since `Array.prototype.sort` is stable, annotations of equal
 length keep the order they had.
 */
module Ordering {
  import opened Annotations

  /** Text lengths never increase along `s`. */
  predicate LongestFirst(s: seq<Annotation>) {
    forall i, j :: 0 <= i < j < |s| ==> |s[i].text| >= |s[j].text|
  }

  /** The annotations of `s` whose text has length `n`, in their order in `s`. */
  function OfLength(s: seq<Annotation>, n: nat): seq<Annotation>
    decreases |s|
  {
    if s == [] then [] else (if |s[0].text| == n then [s[0]] else []) + OfLength(s[1..], n)
  }

  /** Place `a` before the first annotation of `t` that is not longer than it. */
  function Insert(a: Annotation, t: seq<Annotation>): (r: seq<Annotation>)
    ensures multiset(r) == multiset{a} + multiset(t)
    ensures forall n: nat :: OfLength(r, n) == (if |a.text| == n then [a] else []) + OfLength(t, n)
    decreases |t|
  {
    if t == [] || |t[0].text| <= |a.text| then
      ConsLengths(a, t);
      [a] + t
    else
      var rest := Insert(a, t[1..]);
      InsertBehind(a, t, rest);
      [t[0]] + rest
  }

  /** Putting `a` in front adds it to its own length class, at the front. */
  lemma ConsLengths(a: Annotation, t: seq<Annotation>)
    ensures multiset([a] + t) == multiset{a} + multiset(t)
    ensures forall n: nat :: OfLength([a] + t, n) == (if |a.text| == n then [a] else []) + OfLength(t, n)
  {
    assert ([a] + t)[0] == a && ([a] + t)[1..] == t;
  }

  /** Inserting behind a longer head: the head keeps its place in its class. */
  lemma InsertBehind(a: Annotation, t: seq<Annotation>, rest: seq<Annotation>)
    requires t != [] && |t[0].text| > |a.text|
    requires multiset(rest) == multiset{a} + multiset(t[1..])
    requires forall n: nat :: OfLength(rest, n) == (if |a.text| == n then [a] else []) + OfLength(t[1..], n)
    ensures multiset([t[0]] + rest) == multiset{a} + multiset(t)
    ensures forall n: nat :: OfLength([t[0]] + rest, n) == (if |a.text| == n then [a] else []) + OfLength(t, n)
  {
    assert t == [t[0]] + t[1..];
    forall n: nat
      ensures OfLength([t[0]] + rest, n) == (if |a.text| == n then [a] else []) + OfLength(t, n)
    {
      BehindAt(a, t, rest, n);
    }
  }

  lemma BehindAt(a: Annotation, t: seq<Annotation>, rest: seq<Annotation>, n: nat)
    requires t != [] && |t[0].text| > |a.text| && t == [t[0]] + t[1..]
    requires OfLength(rest, n) == (if |a.text| == n then [a] else []) + OfLength(t[1..], n)
    ensures OfLength([t[0]] + rest, n) == (if |a.text| == n then [a] else []) + OfLength(t, n)
  {
    var both := if |a.text| == n then [a] else [];
    var head := if |t[0].text| == n then [t[0]] else [];
    var x := OfLength(t[1..], n);
    ConsLength(t[0], rest, n);
    ConsLength(t[0], t[1..], n);
    assert head + (both + x) == both + (head + x) by {
      if head == [] {
        assert head + (both + x) == both + x == both + (head + x);
      } else {
        assert both == [];
        assert head + (both + x) == head + x == both + (head + x);
      }
    }
  }

  lemma ConsLength(a: Annotation, t: seq<Annotation>, n: nat)
    ensures OfLength([a] + t, n) == (if |a.text| == n then [a] else []) + OfLength(t, n)
  {
    assert ([a] + t)[0] == a && ([a] + t)[1..] == t;
  }

  /** Inserting into a longest-first sequence keeps it longest-first. */
  lemma {:induction false} InsertSorted(a: Annotation, t: seq<Annotation>)
    requires LongestFirst(t)
    ensures LongestFirst(Insert(a, t))
    decreases |t|
  {
    if t == [] || |t[0].text| <= |a.text| {
    } else {
      var rest := Insert(a, t[1..]);
      InsertSorted(a, t[1..]);
      InsertBound(a, t, rest);
      ConsSorted(t[0], rest);
    }
  }

  /** What goes behind a longer head is no longer than that head. */
  lemma InsertBound(a: Annotation, t: seq<Annotation>, rest: seq<Annotation>)
    requires t != [] && |t[0].text| > |a.text| && LongestFirst(t)
    requires multiset(rest) == multiset{a} + multiset(t[1..])
    ensures forall j :: 0 <= j < |rest| ==> |rest[j].text| <= |t[0].text|
  {
    forall j | 0 <= j < |rest| ensures |rest[j].text| <= |t[0].text| {
      assert rest[j] in multiset(rest);
      if rest[j] != a {
        assert rest[j] in multiset(t[1..]);
        var k :| 0 <= k < |t[1..]| && t[1..][k] == rest[j];
        assert t[k + 1] == rest[j];
      }
    }
  }

  lemma ConsSorted(x: Annotation, r: seq<Annotation>)
    requires LongestFirst(r)
    requires forall j :: 0 <= j < |r| ==> |r[j].text| <= |x.text|
    ensures LongestFirst([x] + r)
  {
    var s := [x] + r;
    forall i, j | 0 <= i < j < |s| ensures |s[i].text| >= |s[j].text| {
      assert s[j] == r[j - 1];
      if i > 0 {
        assert s[i] == r[i - 1];
      }
    }
  }

  /** The order a text-mode render leaves the store in. */
  function SortByLength(s: seq<Annotation>): (r: seq<Annotation>)
    ensures multiset(r) == multiset(s)
    ensures LongestFirst(r)
    ensures forall n: nat :: OfLength(r, n) == OfLength(s, n)
    decreases |s|
  {
    if s == [] then []
    else
      assert s == [s[0]] + s[1..];
      var rest := SortByLength(s[1..]);
      InsertSorted(s[0], rest);
      Insert(s[0], rest)
  }

  /** In a longest-first sequence nothing is longer than its head, and
      there is something as long as it. */
  lemma HeadPresent(r: seq<Annotation>)
    ensures r != [] ==> OfLength(r, |r[0].text|) != []
  {
  }

  lemma {:induction false} HeadIsLongest(r: seq<Annotation>, n: nat)
    ensures LongestFirst(r) && r != [] && n > |r[0].text| ==> OfLength(r, n) == []
  {
    if LongestFirst(r) && r != [] && n > |r[0].text| {
      var k := 0;
      while k < |r|
        invariant 0 <= k <= |r|
        invariant OfLength(r, n) == OfLength(r[k..], n)
      {
        assert r[k..] == [r[k]] + r[k + 1..];
        k := k + 1;
      }
    }
  }

  /** A stable longest-first order is unique: two longest-first sequences with
      the same annotations of each length, in the same order, are equal. So
      `SortByLength` is the result of any stable sort with that comparator. */
  lemma {:induction false} StableSortUnique(r: seq<Annotation>, q: seq<Annotation>)
    requires LongestFirst(r) && LongestFirst(q)
    requires forall n: nat :: OfLength(r, n) == OfLength(q, n)
    ensures r == q
    decreases |r|
  {
    if r == [] {
      if q != [] {
        HeadPresent(q);
        assert false;
      }
    } else if q == [] {
      HeadPresent(r);
      assert false;
    } else {
      var lr, lq := |r[0].text|, |q[0].text|;
      if lr > lq {
        HeadIsLongest(q, lr);
        HeadPresent(r);
        assert false;
      } else if lq > lr {
        HeadIsLongest(r, lq);
        HeadPresent(q);
        assert false;
      } else {
        assert OfLength(r, lr) == [r[0]] + OfLength(r[1..], lr);
        assert OfLength(q, lr) == [q[0]] + OfLength(q[1..], lr);
        assert OfLength(r, lr)[0] == r[0];
        assert OfLength(q, lr)[0] == q[0];
        forall n: nat ensures OfLength(r[1..], n) == OfLength(q[1..], n) {
          var p := if lr == n then [r[0]] else [];
          assert OfLength(r, n) == p + OfLength(r[1..], n);
          assert OfLength(q, n) == p + OfLength(q[1..], n);
          assert OfLength(r[1..], n) == OfLength(r, n)[|p|..];
          assert OfLength(q[1..], n) == OfLength(q, n)[|p|..];
        }
        StableSortUnique(r[1..], q[1..]);
        assert r == [r[0]] + r[1..];
        assert q == [q[0]] + q[1..];
      }
    }
  }

  /** Sorting an already sorted store changes nothing, so every line of a
      text render sees the same order, and so does the next render. */
  lemma SortIdempotent(s: seq<Annotation>)
    ensures SortByLength(SortByLength(s)) == SortByLength(s)
  {
    StableSortUnique(SortByLength(SortByLength(s)), SortByLength(s));
  }

  /** A store already in longest-first order is left as it is. */
  lemma SortedIsFixed(s: seq<Annotation>)
    requires LongestFirst(s)
    ensures SortByLength(s) == s
  {
    StableSortUnique(SortByLength(s), s);
  }

  /** `x` clashes with no annotation of `r`, in either direction. */
  predicate ClashFree(x: Annotation, r: seq<Annotation>, ft: FileType) {
    forall y :: y in r ==> !Clash(x, y, ft) && !Clash(y, x, ft)
  }

  lemma {:induction false} UniqueCons(x: Annotation, r: seq<Annotation>, ft: FileType)
    ensures Unique([x] + r, ft) <==> Unique(r, ft) && ClashFree(x, r, ft)
  {
    var t := [x] + r;
    if Unique(t, ft) {
      forall i, j | 0 <= i < |r| && 0 <= j < |r| && i != j ensures !Clash(r[i], r[j], ft) {
        assert t[i + 1] == r[i] && t[j + 1] == r[j];
      }
      forall y | y in r ensures !Clash(x, y, ft) && !Clash(y, x, ft) {
        var k :| 0 <= k < |r| && r[k] == y;
        assert t[0] == x && t[k + 1] == y;
        assert !Clash(t[0], t[k + 1], ft) && !Clash(t[k + 1], t[0], ft);
      }
    }
    if Unique(r, ft) && ClashFree(x, r, ft) {
      forall i, j | 0 <= i < |t| && 0 <= j < |t| && i != j ensures !Clash(t[i], t[j], ft) {
        if i == 0 {
          assert t[j] == r[j - 1];
        } else if j == 0 {
          assert t[i] == r[i - 1];
        } else {
          assert t[i] == r[i - 1] && t[j] == r[j - 1];
        }
      }
    }
  }

  lemma {:induction false} InsertUnique(a: Annotation, t: seq<Annotation>, ft: FileType)
    requires Unique(t, ft) && ClashFree(a, t, ft)
    ensures Unique(Insert(a, t), ft)
    decreases |t|
  {
    if t == [] || |t[0].text| <= |a.text| {
      UniqueCons(a, t, ft);
    } else {
      assert t == [t[0]] + t[1..];
      UniqueCons(t[0], t[1..], ft);
      InsertUnique(a, t[1..], ft);
      var rest := Insert(a, t[1..]);
      forall y | y in rest ensures !Clash(t[0], y, ft) && !Clash(y, t[0], ft) {
        assert y in multiset(rest);
        if y != a {
          assert y in multiset(t[1..]);
        }
      }
      UniqueCons(t[0], rest, ft);
    }
  }

  /** Reordering by the sort keeps the store valid. */
  lemma {:induction false} SortKeepsValid(s: seq<Annotation>, ft: FileType)
    requires StoreValid(s, ft)
    ensures StoreValid(SortByLength(s), ft)
    decreases |s|
  {
    var r := SortByLength(s);
    if s != [] {
      assert s == [s[0]] + s[1..];
      UniqueCons(s[0], s[1..], ft);
      SortKeepsValid(s[1..], ft);
      var rest := SortByLength(s[1..]);
      forall y | y in rest ensures !Clash(s[0], y, ft) && !Clash(y, s[0], ft) {
        assert y in multiset(rest);
      }
      InsertUnique(s[0], rest, ft);
    }
    forall i | 0 <= i < |r| ensures WellFormed(r[i], ft) {
      assert r[i] in multiset(s);
    }
  }
}

=== FILE: page.dfy ===
/**
 The file-content page as a whole: the events its handlers and its text
 render apply to the session, and the store invariant over any run of them.
 The text render belongs here because it sorts the `annotations` state array
 in place, so later label picks append to the sorted store.
 */
module Page {
  import opened Annotations
  import opened Ordering
  import opened Segments

  /** What changes the session: a mouse-up with what the browser reports as
      selected, a pick in the label picker while record `cursor` is shown, or
      a render of the document whose lines are `lines`. */
  datatype Event = Select(raw: string) | Choose(key: string, cursor: int) | Render(lines: seq<string>)

  /** One event. Only the text view's render touches the store: each line
      sorts it in place, so a document with at least one line leaves it
      sorted (`RenderStep` ties this to `RenderLines`). The record view's
      render sorts a filtered copy. No event removes an annotation, and a
      render only reorders the store. */
  function Step(s: Session, e: Event, ft: FileType): (r: Session)
    ensures multiset(s.annotations) <= multiset(r.annotations)
    ensures e.Render? ==> && multiset(r.annotations) == multiset(s.annotations)
                          && r.selectedText == s.selectedText && r.errorMessage == s.errorMessage
  {
    match e
    case Select(raw) => SelectText(s, raw)
    case Choose(key, cursor) => ChooseLabel(s, key, ft, cursor)
    case Render(lines) => if ft == Text && lines != [] then s.(annotations := SortByLength(s.annotations)) else s
  }

  /** A text render leaves the store exactly as rendering the document's
      lines does. */
  lemma RenderStep(s: Session, lines: seq<string>)
    ensures Step(s, Render(lines), Text).annotations == RenderLines(lines, s.annotations).1
  {
    StepStore(s, lines);
    RenderedStore(lines, s.annotations);
    SameStore(Step(s, Render(lines), Text).annotations, RenderLines(lines, s.annotations).1,
              if lines == [] then s.annotations else SortByLength(s.annotations));
  }

  // Two equality steps of `RenderStep`. They are lemmas so that the solver
  // meets `Step` and `RenderLines` in separate proofs; unfolding both in one
  // proof makes its cost explode.

  lemma StepStore(s: Session, lines: seq<string>)
    ensures Step(s, Render(lines), Text).annotations == if lines == [] then s.annotations else SortByLength(s.annotations)
  {
  }

  lemma SameStore(x: seq<Annotation>, y: seq<Annotation>, z: seq<Annotation>)
    requires x == z && y == z
    ensures x == y
  {
  }

  /** The session after the events, one after the other. */
  function Run(s: Session, events: seq<Event>, ft: FileType): (r: Session)
    ensures multiset(s.annotations) <= multiset(r.annotations)
    decreases |events|
  {
    if events == [] then s else Run(Step(s, events[0], ft), events[1..], ft)
  }

  /** A render keeps the session valid: the store is at most reordered by
      the sort, and the sort keeps it valid. */
  lemma RenderValid(s: Session, lines: seq<string>, ft: FileType)
    requires SessionValid(s, ft)
    ensures SessionValid(Step(s, Render(lines), ft), ft)
  {
    if ft == Text && lines != [] {
      SortKeepsValid(s.annotations, ft);
    }
  }

  /** A text render of a non-empty document leaves the store longest first,
      with the same annotations; the selection and the message are kept. */
  lemma RenderSorts(s: Session, lines: seq<string>)
    requires lines != []
    ensures var r := Step(s, Render(lines), Text);
            && LongestFirst(r.annotations) && multiset(r.annotations) == multiset(s.annotations)
            && r.selectedText == s.selectedText && r.errorMessage == s.errorMessage
  {
  }

  /** Every event keeps the session valid. */
  lemma StepValid(s: Session, e: Event, ft: FileType)
    requires SessionValid(s, ft)
    ensures SessionValid(Step(s, e, ft), ft)
  {
    match e {
      case Select(raw) => SelectTextValid(s, raw, ft);
      case Choose(key, cursor) => ChooseLabelValid(s, key, ft, cursor);
      case Render(lines) => RenderValid(s, lines, ft);
    }
  }

  /** Any run of selections, label picks and renders keeps a valid session valid. */
  lemma {:induction false} RunValid(s: Session, events: seq<Event>, ft: FileType)
    requires SessionValid(s, ft)
    ensures SessionValid(Run(s, events, ft), ft)
    decreases |events|
  {
    if events != [] {
      StepValid(s, events[0], ft);
      RunValid(Step(s, events[0], ft), events[1..], ft);
    }
  }

  /** Every session the page can reach from its initial state is valid: no
      two annotations claim the same text in the same scope, and each is a
      non-empty trimmed text with a registry label. */
  lemma ReachableValid(events: seq<Event>, ft: FileType)
    ensures SessionValid(Run(InitialSession, events, ft), ft)
  {
    InitialValid(ft);
    RunValid(InitialSession, events, ft);
  }
}

=== FILE: projects.dfy ===
/**
 The project hub: the list of projects and the "create project" dialog.
 A new project is added only when no existing project has the same name
 up to letter case. `String.prototype.toLowerCase` is a parameter of the
 model (`lower`); `AsciiLower` is one instance of it.
 */
module Projects {
  import opened Wrappers

  /** A project as the creation dialog hands it over (`type` in the page). */
  datatype Project = Project(name: string, description: string, kind: string)

  /** The hub's state: the listed projects and whether the dialog is open. */
  datatype Hub = Hub(projects: seq<Project>, showModal: bool)

  /** The page starts with no projects and the dialog closed. */
  const InitialHub := Hub([], false)

  const DuplicateAlert := "Project name already exists!"

  /** The result of one add: the new state and the alert shown, if any. */
  datatype Added = Added(hub: Hub, alert: Option<string>)

  /** Some project of `ps` carries `name` up to `lower`. */
  predicate NameTaken(ps: seq<Project>, name: string, lower: string -> string) {
    exists i :: 0 <= i < |ps| && lower(ps[i].name) == lower(name)
  }

  /** `projects.some(...)` of the duplicate check, scanning from the front. */
  function AnySameName(ps: seq<Project>, name: string, lower: string -> string): (r: bool)
    ensures r <==> NameTaken(ps, name, lower)
  {
    if ps == [] then false
    else if lower(ps[0].name) == lower(name) then true
    else
      var r := AnySameName(ps[1..], name, lower);
      assert r ==> NameTaken(ps, name, lower) by {
        if r {
          var i :| 0 <= i < |ps[1..]| && lower(ps[1..][i].name) == lower(name);
          assert lower(ps[i + 1].name) == lower(name);
        }
      }
      assert NameTaken(ps, name, lower) ==> r by {
        if NameTaken(ps, name, lower) {
          var i :| 0 <= i < |ps| && lower(ps[i].name) == lower(name);
          assert i != 0;
          assert lower(ps[1..][i - 1].name) == lower(name);
        }
      }
      r
  }

  /** `addProject`: a duplicate name raises the alert and changes nothing (the
      dialog stays as it was); otherwise the project is appended and the
      dialog is closed. */
  function AddProject(h: Hub, p: Project, lower: string -> string): (r: Added)
    ensures r.alert.Some? <==> NameTaken(h.projects, p.name, lower)
    ensures r.alert.Some? ==> r.alert.value == DuplicateAlert && r.hub == h
    ensures r.alert.None? ==> r.hub.projects == h.projects + [p] && !r.hub.showModal
  {
    if AnySameName(h.projects, p.name, lower) then Added(h, Some(DuplicateAlert))
    else Added(Hub(h.projects + [p], false), None)
  }

  /** The "+ Create New Project" button. */
  function OpenModal(h: Hub): (r: Hub)
    ensures r.showModal && r.projects == h.projects
  {
    h.(showModal := true)
  }

  /** The dialog's close action. */
  function CloseModal(h: Hub): (r: Hub)
    ensures !r.showModal && r.projects == h.projects
  {
    h.(showModal := false)
  }

  /** No two listed projects have names equal up to `lower`. */
  predicate DistinctNames(ps: seq<Project>, lower: string -> string) {
    forall i, j :: 0 <= i < j < |ps| ==> lower(ps[i].name) != lower(ps[j].name)
  }

  /** An add keeps the listed names distinct. */
  lemma {:induction false} AddKeepsDistinct(h: Hub, p: Project, lower: string -> string)
    requires DistinctNames(h.projects, lower)
    ensures DistinctNames(AddProject(h, p, lower).hub.projects, lower)
  {
    var r := AddProject(h, p, lower);
    if r.alert.None? {
      var ps := h.projects + [p];
      forall i, j | 0 <= i < j < |ps|
        ensures lower(ps[i].name) != lower(ps[j].name)
      {
        if j == |h.projects| {
          assert ps[i] == h.projects[i];
          assert !(lower(h.projects[i].name) == lower(p.name));
        } else {
          assert ps[i] == h.projects[i] && ps[j] == h.projects[j];
        }
      }
    }
  }

  /** The hub after the dialog submits `ps`, one after the other. */
  function AddAll(h: Hub, ps: seq<Project>, lower: string -> string): Hub
    decreases |ps|
  {
    if ps == [] then h
    else AddAll(AddProject(h, ps[0], lower).hub, ps[1..], lower)
  }

  /** Whatever is submitted, the names stay distinct up to case. */
  lemma {:induction false} AddAllDistinct(h: Hub, ps: seq<Project>, lower: string -> string)
    requires DistinctNames(h.projects, lower)
    ensures DistinctNames(AddAll(h, ps, lower).projects, lower)
    decreases |ps|
  {
    if ps != [] {
      AddKeepsDistinct(h, ps[0], lower);
      AddAllDistinct(AddProject(h, ps[0], lower).hub, ps[1..], lower);
    }
  }

  /** Starting from the empty hub, no two projects ever share a name up to case. */
  lemma FromEmptyDistinct(ps: seq<Project>, lower: string -> string)
    ensures DistinctNames(AddAll(InitialHub, ps, lower).projects, lower)
  {
    AddAllDistinct(InitialHub, ps, lower);
  }

  /** Adds only append: the earlier list is a prefix of the later one, and
      every listed project was either there before or submitted. */
  lemma {:induction false} AddAllExtends(h: Hub, ps: seq<Project>, lower: string -> string)
    ensures var r := AddAll(h, ps, lower).projects;
            && h.projects <= r
            && forall k :: |h.projects| <= k < |r| ==> r[k] in ps
    decreases |ps|
  {
    if ps != [] {
      var h1 := AddProject(h, ps[0], lower).hub;
      AddAllExtends(h1, ps[1..], lower);
      var r := AddAll(h, ps, lower).projects;
      assert r == AddAll(h1, ps[1..], lower).projects;
      forall k | |h.projects| <= k < |r|
        ensures r[k] in ps
      {
        if k < |h1.projects| {
          assert r[k] == h1.projects[k] == ps[0];
        } else {
          assert r[k] in ps[1..];
        }
      }
    }
  }

  /** Every submitted name ends up taken: either its project was added, or a
      project of the same name up to case was already listed. */
  lemma {:induction false} AddAllCovers(h: Hub, ps: seq<Project>, lower: string -> string)
    ensures forall k :: 0 <= k < |ps| ==> NameTaken(AddAll(h, ps, lower).projects, ps[k].name, lower)
    decreases |ps|
  {
    if ps != [] {
      var h1 := AddProject(h, ps[0], lower).hub;
      var r := AddAll(h, ps, lower).projects;
      assert r == AddAll(h1, ps[1..], lower).projects;
      AddAllCovers(h1, ps[1..], lower);
      AddAllExtends(h1, ps[1..], lower);
      assert NameTaken(h1.projects, ps[0].name, lower) by {
        if !NameTaken(h.projects, ps[0].name, lower) {
          assert h1.projects[|h.projects|] == ps[0];
        }
      }
      var i :| 0 <= i < |h1.projects| && lower(h1.projects[i].name) == lower(ps[0].name);
      assert r[i] == h1.projects[i];
      forall k | 0 <= k < |ps|
        ensures NameTaken(r, ps[k].name, lower)
      {
        if k > 0 {
          assert ps[k] == ps[1..][k - 1];
        }
      }
    }
  }

  /** Lower-cases an ASCII capital and leaves every other character alone. */
  function LowerChar(c: char): (d: char)
    ensures 'A' <= c <= 'Z' ==> d as int == c as int + 32
    ensures !('A' <= c <= 'Z') ==> d == c
  {
    if 'A' <= c <= 'Z' then
      var n := c as int + 32;
      assert 97 <= n <= 122;
      n as char
    else c
  }

  /** `toLowerCase` restricted to ASCII capitals. */
  function AsciiLower(s: string): (r: string)
    ensures |r| == |s|
    ensures forall k :: 0 <= k < |s| ==> r[k] == LowerChar(s[k])
  {
    if s == [] then [] else [LowerChar(s[0])] + AsciiLower(s[1..])
  }

  /** "Tax" and "TAX" are the same name up to case. */
  lemma SameUpToCase()
    ensures AsciiLower("TAX") == AsciiLower("Tax")
  {
    var x, y := AsciiLower("TAX"), AsciiLower("Tax");
    assert x[0] == y[0] && x[1] == y[1] && x[2] == y[2];
  }

  /** On an empty hub with the dialog open, the first project is accepted. */
  lemma FirstAccepted(p: Project, lower: string -> string)
    ensures AddProject(OpenModal(InitialHub), p, lower) == Added(Hub([p], false), None)
  {
    assert !NameTaken([], p.name, lower);
  }

  /** Submitting "Tax" and then "TAX" lists one project, alerts on the second
      submission, and leaves the reopened dialog open. */
  lemma CaseDuplicateRejected(d: string, t: string)
    ensures var h1 := AddProject(OpenModal(InitialHub), Project("Tax", d, t), AsciiLower);
            var h2 := AddProject(OpenModal(h1.hub), Project("TAX", d, t), AsciiLower);
            && h1.alert.None? && h1.hub.projects == [Project("Tax", d, t)] && !h1.hub.showModal
            && h2.alert == Some(DuplicateAlert) && h2.hub.projects == h1.hub.projects && h2.hub.showModal
  {
    var first := Project("Tax", d, t);
    FirstAccepted(first, AsciiLower);
    SameUpToCase();
    assert NameTaken([first], "TAX", AsciiLower) by {
      assert [first][0].name == "Tax";
    }
  }
}

=== FILE: scenarios.dfy ===
/**
 A worked example: the sample line of the text view, rendered against two
 overlapping annotations.
 */
module Scenarios {
  import opened Strings
  import opened Labels
  import opened Annotations
  import opened Ordering
  import opened Segments

  lemma FindDot(s: string)
    requires s == "Alice works at Acme. Acme is in Paris."
    ensures IndexOf(s, "Acme.", 0) == 15
  {
    assert s[15] == 'A';
    assert s[16] == 'c';
    assert s[17] == 'm';
    assert s[18] == 'e';
    assert s[19] == '.';
    assert s[15..20] == "Acme.";
    assert s[1] == 'l';
    assert forall j :: 1 <= j < 15 ==> s[j] != 'A';
    forall j | 0 <= j < 15 ensures !OccursAt(s, "Acme.", j) {
      if j == 0 {
        assert s[j..j + 5][1] == s[1];
      } else {
        assert s[j..j + 5][0] == s[j];
      }
    }
    IndexOfAt(s, "Acme.", 0, 15);
  }

  lemma FindAcme(s: string)
    requires s == "Alice works at Acme. Acme is in Paris."
    ensures IndexOf(s, "Acme", 20) == 21
  {
    assert s[21] == 'A';
    assert s[22] == 'c';
    assert s[23] == 'm';
    assert s[24] == 'e';
    assert s[21..25] == "Acme";
    assert s[20] == ' ';
    assert s[20..24][0] == s[20];
    IndexOfAt(s, "Acme", 20, 21);
  }

  lemma StepDot(s: string)
    requires s == "Alice works at Acme. Acme is in Paris."
    ensures Advance(s, Annotation("Acme.", Location, -1), 0)
         == Step([Plain(0, "Alice works at "), Hi(15, "Acme.", Location)], 20)
  {
    var a := Annotation("Acme.", Location, -1);
    FindDot(s);
    AlicePrefix(s);
    assert Advance(s, a, 0) == Step(Cut(s, 0, 0, 15, a), 20);
  }

  lemma AlicePrefix(s: string)
    requires s == "Alice works at Acme. Acme is in Paris."
    ensures s[0..15] == "Alice works at "
  {
    var head, tail := "Alice works at ", "Acme. Acme is in Paris.";
    assert s == head + tail;
    assert (head + tail)[0..15] == head;
  }

  lemma StepAcme(s: string)
    requires s == "Alice works at Acme. Acme is in Paris."
    ensures Advance(s, Annotation("Acme", Organization, -1), 20)
         == Step([Plain(20, " "), Hi(21, "Acme", Organization)], 25)
  {
    FindAcme(s);
    assert s[20..21] == " ";
  }

  lemma SortPair(acme: Annotation, dot: Annotation)
    requires acme == Annotation("Acme", Organization, -1) && dot == Annotation("Acme.", Location, -1)
    ensures SortByLength([acme, dot]) == [dot, acme]
  {
  }

  lemma RestIs(s: string)
    requires s == "Alice works at Acme. Acme is in Paris."
    ensures Rest(s, 25) == [Plain(25, " is in Paris.")]
  {
    assert s[25] == ' ';
    assert s[26] == 'i';
    assert s[27] == 's';
    assert s[28] == ' ';
    assert s[29] == 'i';
    assert s[30] == 'n';
    assert s[31] == ' ';
    assert s[32] == 'P';
    assert s[33] == 'a';
    assert s[34] == 'r';
    assert s[35] == 'i';
    assert s[36] == 's';
    assert s[37] == '.';
    assert s[25..] == " is in Paris.";
  }

  lemma ScenarioFrom(s: string, acme: Annotation, dot: Annotation)
    requires acme == Annotation("Acme", Organization, -1) && dot == Annotation("Acme.", Location, -1)
    requires |s| == 38
    requires Advance(s, dot, 0) == Step([Plain(0, "Alice works at "), Hi(15, "Acme.", Location)], 20)
    requires Advance(s, acme, 20) == Step([Plain(20, " "), Hi(21, "Acme", Organization)], 25)
    requires Rest(s, 25) == [Plain(25, " is in Paris.")]
    ensures Scan(s, [dot, acme], 0)
         == [Plain(0, "Alice works at "), Hi(15, "Acme.", Location), Plain(20, " "),
             Hi(21, "Acme", Organization), Plain(25, " is in Paris.")]
  {
    assert [acme][1..] == [];
    assert [dot, acme][1..] == [acme];
    var end := Scan(s, [], 25);
    assert end == Rest(s, 25);
    var tail := Scan(s, [acme], 20);
    assert tail == Advance(s, acme, 20).emitted + end;
    var all := Scan(s, [dot, acme], 0);
    assert all == Advance(s, dot, 0).emitted + tail;
  }

  /** The sample line with annotations "Acme" (organization) and "Acme."
      (location): the longer one is scanned first and takes the first "Acme",
      the shorter one then takes the next "Acme" after the cursor. */
  lemma Scenario(s: string, store: seq<Annotation>)
    requires s == "Alice works at Acme. Acme is in Paris."
    requires store == [Annotation("Acme", Organization, -1), Annotation("Acme.", Location, -1)]
    ensures RenderLine(s, store)
         == Parts([Plain(0, "Alice works at "), Hi(15, "Acme.", Location), Plain(20, " "),
                   Hi(21, "Acme", Organization), Plain(25, " is in Paris.")])
  {
    SortPair(store[0], store[1]);
    StepDot(s);
    StepAcme(s);
    RestIs(s);
    ScenarioFrom(s, store[0], store[1]);
  }
}

=== FILE: segments.dfy ===
/**
 The text-mode view: each line is cut into plain and highlighted pieces by a
 greedy forward scan over the annotations, longest text first.
 */
module Segments {
  import opened Strings
  import opened Labels
  import opened Annotations
  import opened Ordering

  /** A piece of a rendered line: plain text, or an annotation's text painted
      with its label. `at` is the offset in the line where the piece starts,
      the number the page builds the piece's key from. */
  datatype Segment = Plain(at: nat, text: string) | Hi(at: nat, text: string, tag: Label)

  /** What one line renders to: its pieces, or the bare line when there are
      no pieces at all. */
  datatype LineView = Parts(parts: seq<Segment>) | Whole(line: string)

  /** The text a sequence of pieces displays. */
  function Texts(parts: seq<Segment>): string
    decreases |parts|
  {
    if parts == [] then "" else parts[0].text + Texts(parts[1..])
  }

  function Shown(v: LineView): string {
    match v
    case Parts(parts) => Texts(parts)
    case Whole(line) => line
  }

  /** `parts` lay out `line[from..to]` piece after piece, each piece
      starting where the previous one ended and showing exactly the
      characters of the line it covers. */
  predicate TilesTo(line: string, parts: seq<Segment>, from: nat, to: nat) {
    from <= to <= |line| && LaidOut(line, parts, from) == to
  }

  /** Where the pieces end when laid out over `line` from `from` on, or -1
      when some piece does not start where the previous one ended or does not
      show the characters it covers. */
  function LaidOut(line: string, parts: seq<Segment>, from: nat): (r: int)
    requires from <= |line|
    ensures r == -1 || from <= r <= |line|
    decreases |parts|
  {
    if parts == [] then from
    else if parts[0].at == from && OccursAt(line, parts[0].text, from) then
      LaidOut(line, parts[1..], from + |parts[0].text|)
    else -1
  }

  /** No plain piece is empty and no two plain pieces are adjacent: every
      plain piece is a gap before a highlight, or the remainder of the line. */
  predicate Canonical(parts: seq<Segment>) {
    forall k :: 0 <= k < |parts| && parts[k].Plain? ==>
      parts[k].text != [] && (k + 1 < |parts| ==> parts[k + 1].Hi?)
  }

  /** The (text, label) of every highlighted piece, in order. */
  function Highlights(parts: seq<Segment>): seq<(string, Label)>
    decreases |parts|
  {
    if parts == [] then []
    else (if parts[0].Hi? then [(parts[0].text, parts[0].tag)] else []) + Highlights(parts[1..])
  }

  /** The (text, label) of every annotation, in order. */
  function Marks(anns: seq<Annotation>): seq<(string, Label)>
    decreases |anns|
  {
    if anns == [] then [] else [(anns[0].text, anns[0].tag)] + Marks(anns[1..])
  }

  /** `a` can be obtained from `b` by deleting elements. */
  predicate Subseq<T(==)>(a: seq<T>, b: seq<T>)
    decreases |b|
  {
    if a == [] then true
    else if b == [] then false
    else if a[0] == b[0] then Subseq(a[1..], b[1..])
    else Subseq(a, b[1..])
  }

  /** The cursor and the pieces one iteration of the scan produces. */
  datatype Step = Step(emitted: seq<Segment>, next: nat)

  /**
   One iteration of the scan over the sorted annotations, with the cursor at
   `last`: look for `a.text` at or after the cursor; when it is there, emit
   the gap before it (if any) and the highlight, and move the cursor past it.
   */
  function Advance(line: string, a: Annotation, last: nat): (r: Step)
    requires last <= |line|
    ensures last <= r.next <= |line|
    ensures TilesTo(line, r.emitted, last, r.next)
    ensures Canonical(r.emitted)
    ensures r.emitted == [] <==> forall k :: last <= k ==> !OccursAt(line, a.text, k)
    ensures r.emitted == [] ==> r.next == last
    ensures r.emitted != [] ==>
              var h := r.emitted[|r.emitted| - 1];
              && h == Hi(h.at, a.text, a.tag)
              && OccursAt(line, a.text, h.at)
              && r.next == h.at + |a.text|
              && (forall k :: last <= k < h.at ==> !OccursAt(line, a.text, k))
              && Highlights(r.emitted) == [(a.text, a.tag)]
  {
    var index := IndexOf(line, a.text, last);
    IndexOfFirst(line, a.text, last);
    if index == -1 then Step([], last)
    else
      assert line[0..|line|] == line;
      CutTiles(line, line, 0, last, index, a);
      CutShape(line, 0, last, index, a);
      Step(Cut(line, 0, last, index, a), index + |a.text|)
  }

  /** For text `s` that starts at offset `at` of the line: the plain gap of
      `s` from `from` up to an occurrence of `a.text` at `index` (when the gap
      is not empty), then the highlight of that occurrence. */
  function Cut(s: string, at: nat, from: nat, index: nat, a: Annotation): seq<Segment>
    requires from <= index <= |s|
  {
    (if index > from then [Plain(at + from, s[from..index])] else []) + [Hi(at + index, a.text, a.tag)]
  }

  lemma CutTiles(line: string, s: string, at: nat, from: nat, index: nat, a: Annotation)
    requires at + |s| <= |line| && line[at..at + |s|] == s
    requires from <= index && OccursAt(s, a.text, index)
    ensures TilesTo(line, Cut(s, at, from, index, a), at + from, at + index + |a.text|)
  {
    var hit := [Hi(at + index, a.text, a.tag)];
    HitTiles(line, s, at, index, a);
    if index > from {
      var gap := [Plain(at + from, s[from..index])];
      GapTiles(line, s, at, from, index);
      TilesConcat(line, gap, hit, at + from, at + index, at + index + |a.text|);
      assert Cut(s, at, from, index, a) == gap + hit;
    } else {
      assert Cut(s, at, from, index, a) == hit by { assert [] + hit == hit; }
    }
  }

  /** A cut is canonical, highlights just the occurrence, and ends with it. */
  lemma CutShape(s: string, at: nat, from: nat, index: nat, a: Annotation)
    requires from <= index <= |s|
    ensures Canonical(Cut(s, at, from, index, a))
    ensures Highlights(Cut(s, at, from, index, a)) == [(a.text, a.tag)]
    ensures Cut(s, at, from, index, a)[|Cut(s, at, from, index, a)| - 1] == Hi(at + index, a.text, a.tag)
  {
    var hit := [Hi(at + index, a.text, a.tag)];
    assert Highlights(hit) == [(a.text, a.tag)] + Highlights([]) by { assert hit[1..] == []; }
    if index > from {
      var gap := [Plain(at + from, s[from..index])];
      assert Highlights(gap) == [] + Highlights([]) by { assert gap[1..] == []; }
      HighlightsConcat(gap, hit);
      assert Cut(s, at, from, index, a) == gap + hit;
    } else {
      assert Cut(s, at, from, index, a) == hit by { assert [] + hit == hit; }
    }
  }

  lemma HitTiles(line: string, s: string, at: nat, index: nat, a: Annotation)
    requires at + |s| <= |line| && line[at..at + |s|] == s
    requires OccursAt(s, a.text, index)
    ensures TilesTo(line, [Hi(at + index, a.text, a.tag)], at + index, at + index + |a.text|)
  {
    SliceOfSlice(line, s, at, index, index + |a.text|);
    PieceTiles(line, Hi(at + index, a.text, a.tag));
  }

  lemma GapTiles(line: string, s: string, at: nat, from: nat, index: nat)
    requires at + |s| <= |line| && line[at..at + |s|] == s
    requires from < index <= |s|
    ensures TilesTo(line, [Plain(at + from, s[from..index])], at + from, at + index)
  {
    SliceOfSlice(line, s, at, from, index);
    PieceTiles(line, Plain(at + from, s[from..index]));
  }

  /** A piece that shows the line's characters where it starts tiles them. */
  lemma PieceTiles(line: string, p: Segment)
    requires OccursAt(line, p.text, p.at)
    ensures TilesTo(line, [p], p.at, p.at + |p.text|)
  {
    assert [p][1..] == [];
  }

  /** A slice of text that sits at offset `at` of the line is the matching slice of the line. */
  lemma SliceOfSlice(line: string, s: string, at: nat, i: nat, j: nat)
    requires at + |s| <= |line| && line[at..at + |s|] == s
    requires i <= j <= |s|
    ensures line[at + i..at + j] == s[i..j]
    ensures OccursAt(line, s[i..j], at + i)
  {
    forall k | 0 <= k < j - i ensures line[at + i..at + j][k] == s[i..j][k] {
      assert line[at..at + |s|][i + k] == line[at + i + k];
    }
  }

  /** The trailing plain piece for whatever the scan left after the cursor. */
  function Rest(line: string, last: nat): (r: seq<Segment>)
    requires last <= |line|
    ensures TilesTo(line, r, last, |line|)
    ensures Canonical(r) && Highlights(r) == []
  {
    if last < |line| then
      assert [Plain(last, line[last..])][1..] == [];
      [Plain(last, line[last..])]
    else []
  }

  /**
   The whole forward scan with the cursor starting at `last`: the pieces of
   every annotation in turn, then the remainder of the line.
   */
  function Scan(line: string, anns: seq<Annotation>, last: nat): (parts: seq<Segment>)
    requires last <= |line|
    ensures TilesTo(line, parts, last, |line|)
    ensures Canonical(parts)
    ensures Subseq(Highlights(parts), Marks(anns))
    decreases |anns|
  {
    if anns == [] then Rest(line, last)
    else
      var step := Advance(line, anns[0], last);
      var rest := Scan(line, anns[1..], step.next);
      TilesConcat(line, step.emitted, rest, last, step.next, |line|);
      CanonicalConcat(step.emitted, rest);
      HighlightsConcat(step.emitted, rest);
      assert Marks(anns) == [(anns[0].text, anns[0].tag)] + Marks(anns[1..]);
      if step.emitted == [] then
        SubseqExtend(Highlights(rest), Marks(anns[1..]), (anns[0].text, anns[0].tag));
        assert step.emitted + rest == rest;
        step.emitted + rest
      else
        var m := (anns[0].text, anns[0].tag);
        var hs := [m] + Highlights(rest);
        var ms := [m] + Marks(anns[1..]);
        assert hs[0] == ms[0] && hs[1..] == Highlights(rest) && ms[1..] == Marks(anns[1..]);
        assert Subseq(hs, ms);
        step.emitted + rest
  }

  /**
   How the page renders one text line against the store: it sorts the store
   longest text first (in place, see `RenderLines`), scans, and shows the bare
   line when the scan produced no piece.
   */
  function RenderLine(line: string, store: seq<Annotation>): (v: LineView)
    ensures Shown(v) == line
    ensures v.Whole? ==> line == []
    ensures v.Parts? ==>
              && TilesTo(line, v.parts, 0, |line|)
              && Canonical(v.parts)
              && Subseq(Highlights(v.parts), Marks(SortByLength(store)))
  {
    var parts := Scan(line, SortByLength(store), 0);
    TilesText(line, parts, 0, |line|);
    if |parts| > 0 then Parts(parts) else Whole(line)
  }

  /**
   The text branch of the page's render: every line in turn, each one first
   sorting the store in place. Returns the line views and the store as the
   render leaves it.
   */
  function RenderLines(lines: seq<string>, store: seq<Annotation>): (r: (seq<LineView>, seq<Annotation>))
    ensures |r.0| == |lines|
    ensures forall k :: 0 <= k < |lines| ==> Shown(r.0[k]) == lines[k]
    ensures multiset(r.1) == multiset(store)
    decreases |lines|
  {
    if lines == [] then ([], store)
    else
      var sorted := SortByLength(store);
      var rest := RenderLines(lines[1..], sorted);
      var views := [RenderLine(lines[0], sorted)] + rest.0;
      assert forall k :: 1 <= k < |lines| ==> views[k] == rest.0[k - 1] && lines[k] == lines[1..][k - 1];
      (views, rest.1)
  }

  /** The in-place sort of one line never changes what a later line shows, and
      the render leaves the store sorted once it has shown a line. */
  lemma {:induction false} RenderLinesView(lines: seq<string>, store: seq<Annotation>)
    ensures forall k :: 0 <= k < |lines| ==> RenderLines(lines, store).0[k] == RenderLine(lines[k], store)
    ensures RenderLines(lines, store).1 == if lines == [] then store else SortByLength(store)
    decreases |lines|
  {
    if lines != [] {
      var sorted := SortByLength(store);
      RenderLinesView(lines[1..], sorted);
      var rest := RenderLines(lines[1..], sorted);
      var views := RenderLines(lines, store).0;
      forall k | 0 <= k < |lines| ensures views[k] == RenderLine(lines[k], store) {
        RenderAfterSort(lines[k], store);
        if k > 0 {
          assert views[k] == rest.0[k - 1] && lines[1..][k - 1] == lines[k];
        }
      }
      SortIdempotent(store);
    }
  }

  /** The store as a render leaves it: sorted once a line has been shown. */
  lemma RenderedStore(lines: seq<string>, store: seq<Annotation>)
    ensures RenderLines(lines, store).1 == if lines == [] then store else SortByLength(store)
  {
    RenderLinesView(lines, store);
  }

  /** Rendering against the store a previous line left sorted gives the same view. */
  lemma RenderAfterSort(line: string, store: seq<Annotation>)
    ensures RenderLine(line, SortByLength(store)) == RenderLine(line, store)
  {
    SortIdempotent(store);
  }

  lemma {:induction false} TilesConcat(line: string, a: seq<Segment>, b: seq<Segment>, from: nat, mid: nat, to: nat)
    requires TilesTo(line, a, from, mid) && TilesTo(line, b, mid, to)
    ensures TilesTo(line, a + b, from, to)
    decreases |a|
  {
    if a != [] {
      assert (a + b)[0] == a[0];
      assert (a + b)[1..] == a[1..] + b;
      TilesConcat(line, a[1..], b, from + |a[0].text|, mid, to);
    } else {
      assert a + b == b;
    }
  }

  /** Tiling pieces show exactly the characters they cover. */
  lemma {:induction false} TilesText(line: string, parts: seq<Segment>, from: nat, to: nat)
    requires TilesTo(line, parts, from, to)
    ensures Texts(parts) == line[from..to]
    decreases |parts|
  {
    if parts != [] {
      var m := from + |parts[0].text|;
      TilesText(line, parts[1..], m, to);
      assert line[from..to] == line[from..m] + line[m..to];
    }
  }

  /** Tiling pieces follow each other without overlapping. */
  lemma {:induction false} TilesOrdered(line: string, parts: seq<Segment>, from: nat, to: nat)
    requires TilesTo(line, parts, from, to)
    ensures forall i :: 0 <= i < |parts| ==> from <= parts[i].at && parts[i].at + |parts[i].text| <= to
    ensures forall i, j :: 0 <= i < j < |parts| ==> parts[i].at + |parts[i].text| <= parts[j].at
    decreases |parts|
  {
    if parts != [] {
      TilesOrdered(line, parts[1..], from + |parts[0].text|, to);
      assert forall i :: 1 <= i < |parts| ==> parts[i] == parts[1..][i - 1];
    }
  }

  lemma {:induction false} CanonicalConcat(a: seq<Segment>, b: seq<Segment>)
    requires Canonical(a) && Canonical(b)
    requires a == [] || a[|a| - 1].Hi?
    ensures Canonical(a + b)
  {
    var t := a + b;
    forall k | 0 <= k < |t| && t[k].Plain? ensures t[k].text != [] && (k + 1 < |t| ==> t[k + 1].Hi?) {
      if k < |a| {
        assert t[k] == a[k];
        if k + 1 < |a| { assert t[k + 1] == a[k + 1]; }
      } else {
        assert t[k] == b[k - |a|];
        if k + 1 < |t| { assert t[k + 1] == b[k + 1 - |a|]; }
      }
    }
  }

  lemma {:induction false} HighlightsConcat(a: seq<Segment>, b: seq<Segment>)
    ensures Highlights(a + b) == Highlights(a) + Highlights(b)
    decreases |a|
  {
    if a == [] {
      assert a + b == b;
    } else {
      assert (a + b)[0] == a[0];
      assert (a + b)[1..] == a[1..] + b;
      HighlightsConcat(a[1..], b);
    }
  }

  lemma {:induction false} SubseqExtend<T>(a: seq<T>, b: seq<T>, m: T)
    requires Subseq(a, b)
    ensures Subseq(a, [m] + b)
    decreases |a| + |b|, 1
  {
    assert ([m] + b)[1..] == b;
    if a != [] && a[0] == m {
      SubseqDropHead(a, b);
    }
  }

  lemma {:induction false} SubseqDropHead<T>(a: seq<T>, b: seq<T>)
    requires a != [] && Subseq(a, b)
    ensures Subseq(a[1..], b)
    decreases |a| + |b|, 0
  {
    if a[0] == b[0] {
      SubseqExtend(a[1..], b[1..], b[0]);
      assert [b[0]] + b[1..] == b;
    } else {
      SubseqDropHead(a, b[1..]);
      SubseqExtend(a[1..], b[1..], b[0]);
      assert [b[0]] + b[1..] == b;
    }
  }

  /** When no annotation text occurs in the line, it is shown as one plain
      piece, or bare when it is empty. */
  lemma NothingMatches(line: string, store: seq<Annotation>)
    requires forall i :: 0 <= i < |store| ==> Absent(line, store[i].text)
    ensures RenderLine(line, store) == if line == [] then Whole(line) else Parts([Plain(0, line)])
  {
    var sorted := SortByLength(store);
    forall i | 0 <= i < |sorted| ensures Absent(line, sorted[i].text) {
      assert sorted[i] in multiset(store);
    }
    ScanMissesAll(line, sorted, 0);
  }

  lemma {:induction false} ScanMissesAll(line: string, anns: seq<Annotation>, last: nat)
    requires last <= |line|
    requires forall i :: 0 <= i < |anns| ==> Absent(line, anns[i].text)
    ensures Scan(line, anns, last) == Rest(line, last)
    decreases |anns|
  {
    if anns != [] {
      assert Absent(line, anns[0].text);
      assert Advance(line, anns[0], last).emitted == [];
      ScanMissesAll(line, anns[1..], last);
    }
  }

  /** Every highlight of a rendered line is some stored annotation's text and label. */
  lemma HighlightFromStore(line: string, store: seq<Annotation>, k: int)
    requires RenderLine(line, store).Parts?
    requires 0 <= k < |RenderLine(line, store).parts| && RenderLine(line, store).parts[k].Hi?
    ensures var h := RenderLine(line, store).parts[k];
            exists i :: 0 <= i < |store| && store[i].text == h.text && store[i].tag == h.tag
  {
    var parts := RenderLine(line, store).parts;
    var sorted := SortByLength(store);
    HighlightsMember(parts, k);
    SubseqMembers(Highlights(parts), Marks(sorted), (parts[k].text, parts[k].tag));
    var j := MarksMember(sorted, (parts[k].text, parts[k].tag));
    assert sorted[j] in multiset(store);
    var i :| 0 <= i < |store| && store[i] == sorted[j];
  }

  /** With no empty annotation text, the highlights of a line start at
      strictly increasing offsets. */
  lemma HighlightsIncrease(line: string, store: seq<Annotation>, parts: seq<Segment>, i: int, j: int)
    requires forall a :: a in store ==> a.text != []
    requires RenderLine(line, store) == Parts(parts)
    requires 0 <= i < j < |parts| && parts[i].Hi? && parts[j].Hi?
    ensures parts[i].at < parts[j].at
  {
    TilesOrdered(line, parts, 0, |line|);
    HighlightFromStore(line, store, i);
    var x :| 0 <= x < |store| && store[x].text == parts[i].text;
    assert store[x] in store;
  }

  lemma {:induction false} HighlightsMember(parts: seq<Segment>, k: int)
    requires 0 <= k < |parts| && parts[k].Hi?
    ensures (parts[k].text, parts[k].tag) in Highlights(parts)
    decreases |parts|
  {
    if k > 0 {
      HighlightsMember(parts[1..], k - 1);
    }
  }

  lemma {:induction false} SubseqMembers<T>(a: seq<T>, b: seq<T>, x: T)
    requires Subseq(a, b) && x in a
    ensures x in b
    decreases |b|
  {
    if a[0] == b[0] {
      if x != a[0] {
        SubseqMembers(a[1..], b[1..], x);
      }
    } else {
      SubseqMembers(a, b[1..], x);
    }
  }

  lemma {:induction false} MarksMember(anns: seq<Annotation>, m: (string, Label)) returns (j: int)
    requires m in Marks(anns)
    ensures 0 <= j < |anns| && anns[j].text == m.0 && anns[j].tag == m.1
    decreases |anns|
  {
    if (anns[0].text, anns[0].tag) == m {
      j := 0;
    } else {
      j := MarksMember(anns[1..], m);
      j := j + 1;
    }
  }
}

=== FILE: strings.dfy ===
/**
 The JavaScript string operations the annotation engine relies on:
 `trim`, `indexOf` with a start position, and a global replace whose
 pattern has been escaped so that it matches literally.
 */
module Strings {

  /** The characters `String.prototype.trim` removes: ECMAScript WhiteSpace
      (TAB, VT, FF, SP, NBSP, ZWNBSP and the Zs category) and LineTerminator. */
  predicate IsWhitespace(c: char) {
    || c == '\t' || c == '\n' || c == '\U{B}' || c == '\U{C}' || c == '\r' || c == ' '
    || c == '\U{A0}' || c == '\U{1680}' || ('\U{2000}' <= c <= '\U{200A}')
    || c == '\U{2028}' || c == '\U{2029}' || c == '\U{202F}' || c == '\U{205F}'
    || c == '\U{3000}' || c == '\U{FEFF}'
  }

  /** Every character of `s` in [lo, hi) is whitespace. */
  predicate Blank(s: string, lo: nat, hi: nat)
    requires hi <= |s|
  {
    forall k :: lo <= k < hi ==> IsWhitespace(s[k])
  }

  predicate AllWhitespace(s: string) {
    Blank(s, 0, |s|)
  }

  /** A string `trim` leaves as it is: it neither starts nor ends with whitespace. */
  predicate IsTrimmed(s: string) {
    s == [] || (!IsWhitespace(s[0]) && !IsWhitespace(s[|s| - 1]))
  }

  /** The first position at or after `i` that holds no whitespace, or `|s|`. */
  function SkipStart(s: string, i: nat): (r: nat)
    requires i <= |s|
    ensures i <= r <= |s| && Blank(s, i, r)
    ensures r == |s| || !IsWhitespace(s[r])
    decreases |s| - i
  {
    if i < |s| && IsWhitespace(s[i]) then SkipStart(s, i + 1) else i
  }

  /** The end of `s[lo..j]` once its trailing whitespace is dropped. */
  function SkipEnd(s: string, lo: nat, j: nat): (r: nat)
    requires lo <= j <= |s|
    ensures lo <= r <= j && Blank(s, r, j)
    ensures r == lo || !IsWhitespace(s[r - 1])
    decreases j
  {
    if j > lo && IsWhitespace(s[j - 1]) then SkipEnd(s, lo, j - 1) else j
  }

  /** Where `Trim(s)` starts inside `s`. */
  function TrimOffset(s: string): nat
    ensures TrimOffset(s) <= |s|
  {
    SkipStart(s, 0)
  }

  /** `String.prototype.trim`: `s` with its leading and trailing whitespace removed. */
  function Trim(s: string): (r: string)
    ensures IsTrimmed(r)
    ensures TrimOffset(s) + |r| <= |s| && r == s[TrimOffset(s)..TrimOffset(s) + |r|]
    ensures Blank(s, 0, TrimOffset(s)) && Blank(s, TrimOffset(s) + |r|, |s|)
    ensures r == [] <==> AllWhitespace(s)
  {
    var lo := SkipStart(s, 0);
    var hi := SkipEnd(s, lo, |s|);
    assert hi == lo ==> AllWhitespace(s);
    assert hi > lo ==> s[lo..hi][0] == s[lo];
    s[lo..hi]
  }

  /** `pat` occurs in `s` starting at position `k`. */
  predicate OccursAt(s: string, pat: string, k: int) {
    0 <= k && k + |pat| <= |s| && s[k..k + |pat|] == pat
  }

  /** The start position `indexOf` actually uses: `from` clamped into [0, |s|]. */
  function Clamp(from: int, len: nat): (r: nat)
    ensures r <= len
    ensures 0 <= from <= len ==> r == from
  {
    if from < 0 then 0 else if from > len then len else from
  }

  /** `s.indexOf(pat, from)`: the first position at or after the (clamped)
      start where `pat` occurs, or -1 when there is none (see `IndexOfFirst`). */
  function IndexOf(s: string, pat: string, from: int): (r: int)
    ensures r == -1 || (Clamp(from, |s|) <= r && OccursAt(s, pat, r))
  {
    FindFrom(s, pat, Clamp(from, |s|))
  }

  function FindFrom(s: string, pat: string, k: nat): (r: int)
    requires k <= |s|
    ensures r == -1 || (k <= r && OccursAt(s, pat, r))
    decreases |s| - k
  {
    if OccursAt(s, pat, k) then k
    else if k == |s| then -1
    else FindFrom(s, pat, k + 1)
  }

  /** `indexOf` reports -1 exactly when nothing occurs at or after the start,
      and otherwise nothing occurs between the start and what it reports. */
  lemma IndexOfFirst(s: string, pat: string, from: int)
    ensures IndexOf(s, pat, from) == -1 <==> forall k :: Clamp(from, |s|) <= k ==> !OccursAt(s, pat, k)
    ensures forall k :: Clamp(from, |s|) <= k < IndexOf(s, pat, from) ==> !OccursAt(s, pat, k)
  {
    FindFromFirst(s, pat, Clamp(from, |s|));
  }

  lemma {:induction false} FindFromFirst(s: string, pat: string, k: nat)
    requires k <= |s|
    ensures FindFrom(s, pat, k) == -1 ==> forall j :: k <= j ==> !OccursAt(s, pat, j)
    ensures forall j :: k <= j < FindFrom(s, pat, k) ==> !OccursAt(s, pat, j)
    decreases |s| - k
  {
    if !OccursAt(s, pat, k) && k < |s| {
      FindFromFirst(s, pat, k + 1);
    }
  }

  /** `pat` occurs nowhere in `s`. */
  predicate Absent(s: string, pat: string) {
    forall k :: 0 <= k <= |s| ==> !OccursAt(s, pat, k)
  }

  /** `s` begins with `w`. */
  predicate StartsWith(s: string, w: string) {
    |w| <= |s| && s[..|w|] == w
  }

  /**
   `s.replace(new RegExp("(" + escaped + ")", "g"), pre + "$1" + suf)` where
   `escaped` is `pat` with every regex metacharacter backslash-escaped, so the
   pattern matches `pat` literally: every occurrence found by a left-to-right
   scan that resumes after the previous match becomes `pre + pat + suf`.
   An empty `pat` gives the pattern `()`, which matches at every position,
   the end included.
   */
  function ReplaceAll(s: string, pat: string, pre: string, suf: string): (r: string)
    ensures |s| <= |r|
  {
    if pat == [] then WrapEverywhere(s, pre + suf) else ReplaceFrom(s, pat, pre, suf, 0)
  }

  /** The global replace of a non-empty pattern, resumed at offset `k`:
      the part of `s` from `k` on, every occurrence wrapped. */
  function ReplaceFrom(s: string, pat: string, pre: string, suf: string, k: nat): (r: string)
    requires pat != [] && k <= |s|
    ensures |s| - k <= |r|
    decreases |s| - k
  {
    var i := IndexOf(s, pat, k);
    if i < 0 then s[k..]
    else s[k..i] + pre + pat + suf + ReplaceFrom(s, pat, pre, suf, i + |pat|)
  }

  /** The replace from `k` wraps the occurrence `indexOf` finds first. */
  lemma ReplaceFromUnfold(s: string, pat: string, pre: string, suf: string, k: nat, i: int)
    requires pat != [] && k <= |s| && i == IndexOf(s, pat, k) && i >= 0
    ensures ReplaceFrom(s, pat, pre, suf, k) == s[k..i] + pre + pat + suf + ReplaceFrom(s, pat, pre, suf, i + |pat|)
  {
  }

  /** A replace of a pattern that does not occur changes nothing. */
  lemma ReplaceAbsent(s: string, pat: string, pre: string, suf: string)
    ensures pat != [] && Absent(s, pat) ==> ReplaceAll(s, pat, pre, suf) == s
  {
    if pat != [] && Absent(s, pat) {
      IndexOfFirst(s, pat, 0);
      assert IndexOf(s, pat, 0) == -1;
      assert s[0..] == s;
    }
  }

  /** Wrapping every occurrence in nothing gives back the text. */
  lemma ReplaceWithNothing(s: string, pat: string)
    requires pat != []
    ensures ReplaceAll(s, pat, [], []) == s
  {
    ReplaceFromNothing(s, pat, 0);
    assert s[0..] == s;
  }

  lemma {:induction false} ReplaceFromNothing(s: string, pat: string, k: nat)
    requires pat != [] && k <= |s|
    ensures ReplaceFrom(s, pat, [], [], k) == s[k..]
    decreases |s| - k
  {
    var i := IndexOf(s, pat, k);
    if i >= 0 {
      ReplaceFromNothing(s, pat, i + |pat|);
      NothingStep(s, pat, k, i);
    }
  }

  lemma NothingStep(s: string, pat: string, k: nat, i: int)
    requires pat != [] && k <= |s| && i == IndexOf(s, pat, k) && i >= 0
    requires ReplaceFrom(s, pat, [], [], i + |pat|) == s[i + |pat|..]
    ensures ReplaceFrom(s, pat, [], [], k) == s[k..]
  {
    var j := i + |pat|;
    ReplaceFromUnfold(s, pat, [], [], k, i);
    Around(s, k, i, j);
    Unpadded(s[k..i], pat, s[j..]);
  }

  // Two regroupings of concatenations. Each is one step of the proof above,
  // kept as a lemma so that the solver meets the step as a single fact; as
  // inline assertions they make that proof's cost vary widely with the seed.

  lemma Around(s: string, k: nat, i: nat, j: nat)
    requires k <= i <= j <= |s|
    ensures s[k..] == s[k..i] + s[i..j] + s[j..]
  {
  }

  lemma Unpadded(x: string, y: string, z: string)
    ensures x + [] + y + [] + z == x + y + z
  {
  }

  /** What a global replace of the empty pattern does: `w` before every
      character and once more at the end. */
  function WrapEverywhere(s: string, w: string): (r: string)
    ensures |r| == |s| + (|s| + 1) * |w|
    decreases |s|
  {
    if s == [] then w else w + [s[0]] + WrapEverywhere(s[1..], w)
  }

  /** `indexOf` finds an occurrence when it is the first one at or after the start. */
  lemma IndexOfAt(s: string, pat: string, from: nat, k: nat)
    requires from <= k && OccursAt(s, pat, k)
    requires forall j :: from <= j < k ==> !OccursAt(s, pat, j)
    ensures IndexOf(s, pat, from) == k
  {
    IndexOfFirst(s, pat, from);
    var r := IndexOf(s, pat, from);
    assert r != -1;
  }

  /** The global replace starts by wrapping the first occurrence. */
  lemma ReplaceFirstAt(s: string, pat: string, pre: string, suf: string, k: nat, head: string)
    requires pat != [] && OccursAt(s, pat, k) && head == s[..k]
    requires forall j :: 0 <= j < k ==> !OccursAt(s, pat, j)
    ensures ReplaceAll(s, pat, pre, suf) == head + pre + pat + suf + ReplaceFrom(s, pat, pre, suf, k + |pat|)
  {
    IndexOfAt(s, pat, 0, k);
    assert s[0..k] == head;
  }

  /** When the first occurrence follows `p`, the replace keeps `p` and wraps it. */
  lemma ReplaceAfter(s: string, pat: string, pre: string, suf: string, p: string, rest: string)
    requires pat != [] && s == p + pat + rest
    requires forall j :: 0 <= j < |p| ==> !OccursAt(s, pat, j)
    ensures ReplaceAll(s, pat, pre, suf) == p + pre + pat + suf + ReplaceFrom(s, pat, pre, suf, |p| + |pat|)
  {
    assert OccursAt(s, pat, |p|) && s[..|p|] == p by {
      assert s == p + (pat + rest);
      assert s[|p|..|p| + |pat|] == pat;
    }
    ReplaceFirstAt(s, pat, pre, suf, |p|, p);
  }

  /** In that situation the pattern first occurs right after the break. */
  lemma FirstAfterBreak(p: string, q: string, pat: string, c: char)
    requires pat != [] && Absent(p, pat)
    requires |q| > |pat| && q[0] == c && q[1..1 + |pat|] == pat && c !in pat
    ensures OccursAt(p + q, pat, |p| + 1) && (p + q)[..|p| + 1] == p + [c]
    ensures forall j :: 0 <= j < |p| + 1 ==> !OccursAt(p + q, pat, j)
  {
    var s := p + q;
    var n := |p|;
    assert s[n + 1..n + 1 + |pat|] == q[1..1 + |pat|];
    forall j | 0 <= j < n + 1 ensures !OccursAt(s, pat, j) {
      if j + |pat| <= n {
        assert s[j..j + |pat|] == p[j..j + |pat|];
        assert !OccursAt(p, pat, j);
      } else if j + |pat| <= |s| {
        assert s[j..j + |pat|][n - j] == q[0];
      }
    }
    assert s[..n + 1] == p + [c];
  }
}

=== FILE: wrappers.dfy ===
/** Failure-carrying values shared by the other modules. */
module Wrappers {

  datatype Option<T> = None | Some(value: T)

  datatype Result<T, E> = Success(value: T) | Failure(error: E)
}
